=== FILE: README.md ===
# A Dafny model of the cvlz.py strategy game's simulation core

`cvlz.py` is a console turn-based strategy game. A player civilization and two AI
civilizations own cities and units on a 20 by 15 map. Cities work their tile into
four cumulative counters: food, production, gold and science. Player cities build
units through a one-order production queue. Science unlocks technologies from a
fixed prerequisite graph. The bronze-working technology gates every unit type
except the settler. A settler founds new cities. The diplomacy menu is meant to let
the player declare war on an AI civilization or make peace with it; as written it
stops the program before it offers that choice (see Findings). Each turn runs in a fixed order:

1. turn counter
2. player cities
3. yields
4. treasury
5. research threshold
6. unit moves
7. AI step
8. victory check

The game is won at five cities and lost at none.

This project models those rules as pure functions on immutable records:

| file | module | contents |
|---|---|---|
| `common.dfy` | Common | results and errors; list helpers |
| `tables.dfy` | Tables | enumerations, cost tables, prerequisite graph |
| `units.dfy` | Units | `move`, `reset_moves`, menu step guards, AI's clamped step |
| `cities.dfy` | Cities | `work_tile`, the production queue, instant buildings |
| `civs.dfy` | Civs | `calculate_yields`, research, availability filters |
| `gamestate.dfy` | GameState | the game record, its well-formedness invariant, `check_victory`, the setup |
| `turns.dfy` | Turns | `Game.process_turn` and `ai_turn` |
| `commands.dfy` | Commands | between-turn commands: found a city, set production, build, start research, step a unit, war and peace |

Object identity and back-references are modelled with ids:

- Cities and units carry an `id`.
- The player's civilization is 0 and the AI civilizations are 1 and 2.
- `Game.nextId` is the first id not yet handed out.

The map's own lists of placed cities and units are kept as id sequences. This makes
it possible to state that produced units never reach the map's list.

Randomness is passed in:

- City terrain is a parameter of founding and of the setup.
- The AI start squares are parameters of the setup.
- The AI displacement is a function `Roll` from (civilization index, unit index)
  to a pair of offsets in {-1, 0, 1}.

Names typed at prompts are parameters too; an empty answer takes the default. A
command the menus would not carry out returns `Err` with the reason, and the game is
left unchanged.

The model reproduces these behaviours of the code as it stands:

- `research_tech` does not check prerequisites; only the technology menu does.
- Production progress adds the city's cumulative production counter, not one turn's
  yield.
- Excess progress is discarded.
- A produced unit joins the civilization but not the map's unit list.
- Buildings are added on the spot, without their cost. The menu filter keeps them
  unique.
- AI cities only work their tile.
- AI units never get their moves back.
- Gold is never clamped.

Three more behaviours of the code decide where the model puts its checks:

- The city menu appends a chosen building to the city at once (cvlz.py:420-422); it
  never goes through the production queue, so the queue holds only unit orders.
- `set_production` accepts any unit type (cvlz.py:120-122). Only the city menu's
  list filters by bronze working (cvlz.py:384-389), so that filter lives in
  `Commands.SetCityProduction`.
- Research completes when this turn's science per turn reaches the technology's cost
  (cvlz.py:588-592). Science is never accumulated towards it.

## Model

| member | source | states |
|---|---|---|
| Common.RemoveFirst | cvlz.py:533-535 | removing an element present drops its first occurrence and keeps everything before and after it in order, so one less of it (multiset) and one element shorter; an absent element leaves the list as it is; nothing new appears |
| Common.Select | cvlz.py:377-381 | the menu-building loop yields the elements satisfying the filter in their original order (the reference `Filter`): exactly those elements, none repeated, never a longer list |
| Tables.EnumerationsComplete | cvlz.py:8-43 | the listed unit types, buildings and technologies are all of them, each once |
| Tables.CostsPositive | cvlz.py:211-251 | every unit costs at least 25 production and every technology at least 20 science |
| Tables.RequirementLowersRank | cvlz.py:253-263 | every prerequisite sits strictly lower in the technology graph than what requires it |
| Tables.ChainRaisesRank | cvlz.py:253-263 | along a chain of prerequisites the height grows by at least one per step |
| Tables.RequirementsAcyclic | cvlz.py:253-263 | no chain of prerequisites returns to its start: the graph is acyclic |
| Tables.ChainsAreShort | cvlz.py:253-263 | no prerequisite chain has more than four technologies |
| Units.Move | cvlz.py:148-154 | with moves left, shifts by the offset and spends exactly one move, returning true; without, returns false and changes nothing; moves stay in [0, 2] |
| Units.ResetMoves | cvlz.py:156-157 | moves become 2 and nothing else changes |
| Units.MoveThenBack | cvlz.py:148-154 | a step and the opposite step return the unit to its square, two moves poorer |
| Units.TwoMovesPerTurn | cvlz.py:148-157 | from full moves two steps succeed and the third is refused, leaving the unit where it is |
| Units.ControlMove | cvlz.py:494-516 | the unit menu's step is offered only with moves left and succeeds exactly when the target square is on the map; on success it is `move`; without moves the reason is no moves, and with moves left a refusal is always out of bounds |
| Units.AiMove | cvlz.py:612-620 | a unit with moves spends one move and, on each axis, takes the drawn step when it stays on the map, stops at 0 below it and at the last row or column beyond it; the result is on the map and at most one square away; a unit without moves stays put |
| Cities.WorkTerrain | cvlz.py:100-111 | the terrain's share of `work_tile`: exactly the terrain's yield added |
| Cities.WorkBuildings | cvlz.py:113-118 | the buildings' share of `work_tile`: exactly the granary, library and market bonuses added |
| Cities.WorkTile | cvlz.py:98-118 | only the four counters change, none decreases, and a valid city stays valid |
| Cities.WorkTileGain | cvlz.py:98-118 | the counters grow by exactly the terrain yield plus the building bonuses |
| Cities.HillsWithoutBuildings | cvlz.py:106-108 | hills with no buildings add 3 production and 1 gold, no food and no science |
| Cities.BarrenTerrainYieldsNothing | cvlz.py:100-111 | mountains and ocean add nothing of their own; without buildings the city is unchanged |
| Cities.BuildingBonuses | cvlz.py:113-118 | adding a granary, library or market adds +1 food, +2 science or +2 gold to each later tile work; other buildings add nothing |
| Cities.ListBonusAppend | cvlz.py:113-118 | the summed bonuses of a building list grow by exactly the appended building's bonus |
| Cities.WorkTileFollowsBuildingList | cvlz.py:113-118 | with no building type listed twice, `work_tile` adds the terrain yield plus the bonuses of the buildings in the list, one by one |
| Cities.WorkTimesAccumulates | cvlz.py:98-118 | `n` tile works add `n` times the per-work gain and change nothing else |
| Cities.SetProduction | cvlz.py:120-122 | the order is replaced and its progress reset to 0; nothing else changes |
| Cities.SwitchingOrdersDiscardsProgress | cvlz.py:120-122 | setting two orders in a row is setting the second: earlier progress is lost |
| Cities.CityProcessTurn | cvlz.py:124-136 | the tile is worked first; a unit is produced exactly when progress plus the cumulative production counter reaches the cost; it is one unit of the ordered type at the city's square and owner, and the queue empties; otherwise progress grows by the counter; an idle city only works its tile; validity is kept |
| Cities.IdleCityBuildsNothing | cvlz.py:124-127 | an idle city stays idle and produces nothing, over any number of turns |
| Cities.OneUnitPerOrder | cvlz.py:131-136 | one order yields at most one unit however many turns pass: excess progress is discarded |
| Cities.OrderCompletes | cvlz.py:124-136 | on productive terrain every order completes within cost-minus-progress turns |
| Cities.BarrenCityNeverBuilds | cvlz.py:124-136 | a city with no production and no productive terrain never completes an order |
| Cities.ProgressAfterTurns | cvlz.py:129 | after `k` turns without completion progress has grown by `k` times the counter plus `1 + 2 + ... + k` times the per-turn gain: the counter, not one turn's yield, is added |
| Cities.AddBuilding | cvlz.py:420-422 | a building is appended on the spot exactly when the city does not have its type, and validity is kept; otherwise it is refused |
| Cities.AvailableBuildings | cvlz.py:377-381 | the building menu offers exactly the types the city lacks, each once, and each of them can be built |
| Civs.TotalAppend | cvlz.py:62-64 | the city sum grows by exactly an appended city's counters |
| Civs.TotalMonotone | cvlz.py:62-64 | pointwise larger counters give larger sums |
| Civs.TotalNonNegative | cvlz.py:62-64 | sums of non-negative counters are non-negative |
| Civs.CalculateYields | cvlz.py:62-64 | science per turn is the cities' science summed; gold per turn the cities' gold summed minus one per unit; nothing else changes |
| Civs.CalculateYieldsIdempotent | cvlz.py:62-64 | the yields are recomputed, not accumulated: a second call changes nothing |
| Civs.YieldBounds | cvlz.py:62-64 | in a valid civilization science per turn is never negative and gold per turn is at least minus the number of units |
| Civs.ResearchTech | cvlz.py:66-73 | accepts exactly a technology neither unlocked nor discovered, replacing the active research; a refusal changes nothing |
| Civs.ResearchTechAcceptsUnknown | cvlz.py:66-73 | while unlocked table and discovery list agree, it accepts exactly the technologies not unlocked, and keeps them in agreement |
| Civs.CompleteResearch | cvlz.py:75-79 | the active technology is unlocked, appended to the discovery list, and the active research cleared; with none active nothing happens; nothing is ever locked again; consistency of the knowledge is kept |
| Civs.ResearchThenComplete | cvlz.py:66-79 | starting and completing an unknown technology adds it to the table and exactly once to the list |
| Civs.AllUnlocked | cvlz.py:455-456 | the `all(...)` test holds exactly when every listed prerequisite is unlocked |
| Civs.AvailableTechs | cvlz.py:452-457 | the technology menu offers exactly the technologies not unlocked whose every prerequisite is unlocked (a missing key meaning none), each once |
| Civs.ResearchableAtStart | cvlz.py:452-457 | knowing only agriculture, exactly pottery, archery, mining and the wheel are offered |
| Civs.CompletionOpensSuccessors | cvlz.py:452-457 | completing the last missing prerequisite makes a technology researchable |
| Civs.ResearchIgnoresPrerequisites | cvlz.py:66-73 | `research_tech` starts mathematics without writing, which the menu would not offer |
| Civs.StartResearch | cvlz.py:449-471 | the technology menu acts only while nothing is researched and only on a researchable technology; it then starts it, except that a technology already in the discovery list leaves the civilization unchanged, as `research_tech` refuses it silently; refusals name the reason |
| Civs.AvailableUnits | cvlz.py:384-389 | the city menu offers exactly the settler, plus every unit type once bronze working is known, each once |
| Civs.ResearchStep | cvlz.py:588-592 | when this turn's science per turn reaches the active technology's cost the result is exactly `CompleteResearch`, otherwise the civilization is unchanged; the table changes exactly then; knowledge stays consistent |
| GameState.CheckVictory | cvlz.py:622-628 | the game is over exactly when it was, or the player has five or more cities, or none; nothing else changes |
| GameState.CheckVictoryOutcomes | cvlz.py:622-628 | with one to four cities the check changes nothing, and it is idempotent |
| GameState.OrDefault | cvlz.py:276-277 | an empty answer takes the default; any other answer is kept |
| GameState.AiCivWellFormed | cvlz.py:303-320 | each AI civilization starts valid, on the map, with one city, and at peace with the player |
| GameState.PlayerCivWellFormed | cvlz.py:281-297 | the player starts valid, on the map, knowing agriculture, at peace with both AI civilizations |
| GameState.InitialGame | cvlz.py:273-320 | the setup: default names, the capital and a settler at (10, 7), agriculture known, 100 gold, a 20 by 15 map; two AI civilizations, Египет led by Рамзес and Греция led by Александр, each with its capital and one warrior on its drawn square and terrain; peace on both sides; every city and unit numbered in creation order, in the map's lists, and the next free id 6 |
| GameState.InitialGameWellFormed | cvlz.py:273-320 | the setup is well-formed and every AI civilization is at peace with the player, on both sides |
| Turns.Completing | cvlz.py:124-136 | the cities selected as finishing their order this turn each finish it and come from the list |
| Turns.CompletingAppend | cvlz.py:580-582 | selecting from two joined city lists is selecting from each in turn: the selection keeps the cities' order |
| Turns.CompletingComplete | cvlz.py:124-136 | every city of the list that finishes its order is selected |
| Turns.CompletingSingle | cvlz.py:124-136 | a single city is selected exactly when it finishes its order |
| Turns.CityTurnIgnoresId | cvlz.py:124-136 | what a city becomes in its turn does not depend on the new unit's id |
| Turns.TurnCities | cvlz.py:580-582 | each player city takes its own turn; the units produced are, in city order, exactly the units of the cities finishing their order, numbered from the next free id |
| Turns.ResetAll | cvlz.py:595-597 | every unit gets exactly `reset_moves` |
| Turns.PlayerPhase | cvlz.py:580-597 | the player's cities are the cities after their turns; the units are the old units and the produced ones, all with moves reset |
| Turns.WorkAll | cvlz.py:607-609 | every AI city works its tile once |
| Turns.AiCivTurn | cvlz.py:605-620 | an AI civilization's cities only work their tile; each unit takes its drawn, clamped step; nothing else changes |
| Turns.AiTurn | cvlz.py:605-620 | every AI civilization takes its step, in order |
| Turns.ProcessTurn | cvlz.py:577-603 | the turn counter grows by one; the map is untouched; the treasury grows by exactly the new gold per turn, unclamped; every player unit ends with full moves; the player's city count is kept; the game-over flag is the victory check; the AI step is applied |
| Turns.TurnYields | cvlz.py:580-586 | science and gold per turn are recomputed from the cities after their turn and the units including those just produced |
| Turns.TurnUnits | cvlz.py:580-597 | the player keeps every unit with moves reset, and gains one unit per city finishing its order, numbered from the next free id |
| Turns.PlayerPhaseUnits | cvlz.py:580-597 | the player phase keeps every unit with moves restored and appends one unit per city finishing its order, numbered from the next free id |
| Turns.ProducedUnitsNotOnMap | cvlz.py:134 | a produced unit joins the civilization but never the map's unit list |
| Turns.TurnResearch | cvlz.py:588-592 | in every game, research completes exactly when the science per turn just recomputed reaches the active technology's cost: a threshold, not an accumulation |
| Turns.NoLibraryNoResearch | cvlz.py:588-592 | with no library and no science gathered, research never completes and that stays so |
| Turns.AiCitiesOnlyWork | cvlz.py:607-609 | AI cities only work their tile and never produce; AI treasury, yields and knowledge never change |
| Turns.AiCivStalls | cvlz.py:612-613 | an AI civilization whose units have no moves keeps every unit in place |
| Turns.AiUnitsStopAfterTwoTurns | cvlz.py:605-620 | AI moves are never reset: after two turns every AI unit has no moves and stays put |
| Turns.PlayerPhaseValid | cvlz.py:580-597 | the player's phase keeps the civilization valid and on the map, with the same identity and relations |
| Turns.AiCivTurnValid | cvlz.py:605-620 | the AI step keeps an AI civilization valid and on the map, with its cities, name and relations |
| Turns.ProcessTurnPreservesWellFormed | cvlz.py:577-603 | a turn keeps the game well-formed |
| Commands.NatToString | cvlz.py:527 | the decimal digits of a number, starting with 0 only for 0 |
| Commands.ParseNatToString | cvlz.py:527 | reading the digits back gives the number |
| Commands.FoundCity | cvlz.py:517-537 | only a settler with moves left founds a city; the city stands on its square, belongs to the player, is named from the answer or numbered after the player's cities, gets a fresh id and is put on the map; the settler leaves the player's units and the map's list; nothing else of the map or the game changes; otherwise the reason is returned |
| Commands.FoundCityWellFormed | cvlz.py:526-537 | founding a city keeps the game well-formed |
| Commands.FoundSecondCity | cvlz.py:526-537 | from the setup, founding with the settler and no name gives two cities, the second named "Город 2" at (10, 7), no units, only the AI warriors on the map, and no victory |
| Commands.SetCityProduction | cvlz.py:384-407 | the city menu sets an order exactly when the unit type is available; progress restarts at 0 and nothing else changes |
| Commands.SetCityProductionWellFormed | cvlz.py:398-407 | a production order keeps the game well-formed |
| Commands.BuildInCity | cvlz.py:412-422 | a building is added to the chosen city exactly when it lacks the type; nothing else of that city changes and the other cities are untouched |
| Commands.BuildInCityWellFormed | cvlz.py:412-422 | building keeps the game well-formed |
| Commands.BuildTwiceRefused | cvlz.py:377-381 | the same building cannot be bought twice in a city |
| Commands.StartPlayerResearch | cvlz.py:449-471 | research starts exactly when nothing is researched and the technology is offered, and only the player's active research changes (nothing at all for a technology already in the discovery list); refusals name the reason |
| Commands.StartPlayerResearchWellFormed | cvlz.py:449-471 | starting research keeps the game well-formed |
| Commands.MoveUnit | cvlz.py:494-516 | a step of the chosen unit succeeds exactly when it has moves and the target is on the map; the unit becomes exactly `move` by the offset, one square over with one move spent; with moves left a refusal is out of bounds; other units and the rest of the game are untouched |
| Commands.MoveUnitWellFormed | cvlz.py:509-516 | stepping keeps the game well-formed |
| Commands.TwoStepsPerTurn | cvlz.py:494-516 | the third step of a unit in a turn is refused for lack of moves |
| Commands.SetRelation | cvlz.py:566-573 | the relation is set on both sides, under each other's names; every other relation of both civilizations, every other AI civilization and everything else in the game stay as they were |
| Commands.Diplomacy | cvlz.py:558-573 | for an existing AI civilization, war or peace is set on both sides exactly as `SetRelation` does and nothing but relations change; "information" changes nothing; an index naming no civilization is refused |
| Commands.DiplomacyOnlyTouchesChosen | cvlz.py:566-573 | relations with every other AI civilization stay as they were, on both sides |
| Commands.SetRelationWellFormed | cvlz.py:566-573 | setting a relation on both sides keeps the game well-formed, in particular symmetric |
| Commands.DiplomacyWellFormed | cvlz.py:566-573 | diplomacy keeps the game well-formed, in particular symmetric |
| Commands.DiplomacyAsWritten | cvlz.py:539-575 | the menu stops the program as soon as an AI civilization has a city |
| Commands.DiplomacyUnreachable | cvlz.py:550 | in every well-formed game with an AI civilization the written menu never reaches war or peace, while the intended one does |

## Left out

- Console I/O is not modelled: map display, status display, the menu loops and their
  prompts, and `print`. Only the guards of the menus are kept, as the refusals of the
  commands.
- A menu choice that is not a number, or is out of range, has no effect. The city
  menu and the unit's move menu then prompt again; the unit list, technology and
  diplomacy menus return. The commands take the chosen index, or the chosen item
  directly, and return `UnknownEntity` for an index that names nothing.
- `save_game` is not modelled: it writes a file with the current time.
- Map tiles are not modelled. They are drawn at random and used only for display;
  a city's terrain is drawn separately and is a parameter.
- Random draws are parameters.
- Building costs are never charged. `Tables.BuildingCost` transcribes the table,
  but the code only shows it in the city menu (cvlz.py:379-380).
- Health, combat strength, population and happiness are carried but never change;
  nothing in the code changes them.
- The yields of AI civilizations are not modelled: the code never recomputes them.
- Unit ids are unique because they are handed out from `nextId`. That is not part of
  `WellFormed`.
- `Commands.FoundCity`: removes the settler from the map's list by id rather than by
  object identity; the two agree while ids are unique.
- `Commands.DiplomacyAsWritten`: models only that the program stops, not the lines
  printed before it does.
- `Civs.AvailableTechs`: states which technologies the list holds and that none
  repeats, not that they come in declaration order.
- `Civs.AvailableUnits`: states which unit types the list holds and that none
  repeats, not that they come in declaration order.
- `Cities.AvailableBuildings`: states which buildings the list holds and that none
  repeats, not that they come in declaration order.
- `Commands.NatToString`: covers `str` of natural numbers only, the only numbers
  the default city name uses.

## Findings

| source | as written | input that shows it | evidently intended | confidence | as-written member | corrected member |
|---|---|---|---|---|---|---|
| cvlz.py:550 | the diplomacy menu prints each AI civilization's strength as `sum(len(c.units) for c in civ.cities)`, but cities have no `units` attribute, so the menu raises an uncaught AttributeError before any choice | any game after setup: each AI civilization starts with its capital, so choosing the diplomacy menu stops the program and war or peace can never be set | the strength of the civilization's own units (`len(civ.units)`), after which the menu sets war or peace on both sides | high, not executed | Commands.DiplomacyAsWritten (with Commands.DiplomacyUnreachable) | Commands.Diplomacy (with Commands.DiplomacyWellFormed and Commands.DiplomacyOnlyTouchesChosen) |

=== FILE: cities.dfy ===
/** Cities: the terrain and building yield tables, `work_tile`, the
    one-order production queue (`set_production`, `process_turn`) and the
    instant construction of buildings from the city menu. */
module Cities {

  import opened Common
  import opened Tables
  import opened Units

  /** The four cumulative counters of a city (food, production, gold,
      science), or a change to them. */
  datatype Yield = Yield(food: int, production: int, gold: int, science: int) {
    function Plus(o: Yield): Yield {
      Yield(food + o.food, production + o.production, gold + o.gold, science + o.science)
    }
    function Times(n: nat): Yield {
      Yield(n * food, n * production, n * gold, n * science)
    }
    predicate NonNegative() {
      food >= 0 && production >= 0 && gold >= 0 && science >= 0
    }
    /** No counter of `this` exceeds the one of `o`. */
    predicate AtMost(o: Yield) {
      food <= o.food && production <= o.production && gold <= o.gold && science <= o.science
    }
  }

  const NoYield := Yield(0, 0, 0, 0)

  /** What working the tile of each terrain adds. */
  function TerrainYield(t: Terrain): Yield {
    match t
    case Plains => Yield(2, 1, 0, 0)
    case Forest => Yield(1, 2, 0, 0)
    case Hills => Yield(0, 3, 1, 0)
    case Coast => Yield(2, 0, 2, 0)
    case Mountains => NoYield
    case Ocean => NoYield
  }

  /** What each building adds on top, each turn the tile is worked. */
  function BuildingBonus(b: Building): Yield {
    match b
    case Granary => Yield(1, 0, 0, 0)
    case Library => Yield(0, 0, 0, 2)
    case Market => Yield(0, 0, 2, 0)
    case Barracks => NoYield
    case Walls => NoYield
    case Temple => NoYield
  }

  /** The bonuses a city with the given buildings collects on each turn of
      tile work: each of granary, library and market counts once if present,
      however often it is listed. */
  function BuildingsBonus(buildings: seq<Building>): Yield {
    var food := if Granary in buildings then 1 else 0;
    var gold := if Market in buildings then 2 else 0;
    var science := if Library in buildings then 2 else 0;
    Yield(food, 0, gold, science)
  }

  /** Total bonus of a building list, one bonus per entry. */
  function ListBonus(buildings: seq<Building>): Yield {
    if |buildings| == 0 then NoYield
    else BuildingBonus(buildings[0]).Plus(ListBonus(buildings[1..]))
  }

  /** What one turn of tile work adds to a city: its terrain's yield plus the
      bonus of every building type it has. */
  function TileGain(t: Terrain, buildings: seq<Building>): Yield {
    var ty := TerrainYield(t);
    var bonus := BuildingsBonus(buildings);
    Yield(ty.food + bonus.food, ty.production + bonus.production, ty.gold + bonus.gold, ty.science + bonus.science)
  }

  /** The production queue: no order, or one unit order with its progress. */
  datatype Queue = Idle | InProgress(order: UnitType, progress: int)

  /** A city. `owner` is the id of the owning civilization; `id` stands for
      the object identity by which the map's city registry finds it;
      `stock` holds the four cumulative counters. */
  datatype City = City(
    id: nat,
    name: string,
    x: int,
    y: int,
    owner: nat,
    population: int,
    happiness: int,
    stock: Yield,
    buildings: seq<Building>,
    queue: Queue,
    terrain: Terrain)

  /** A freshly founded city; its terrain is the random draw of the source,
      passed in. */
  function NewCity(id: nat, name: string, x: int, y: int, owner: nat, terrain: Terrain): City {
    City(id, name, x, y, owner, 1, 100, NoYield, [], Idle, terrain)
  }

  /** The order in the queue is never already paid for: progress stays
      in [0, cost) between turns. */
  predicate QueueValid(c: City) {
    c.queue.InProgress? ==> 0 <= c.queue.progress < UnitCost(c.queue.order)
  }

  /** What every reachable city satisfies: counters start at zero and only
      grow, no building type is listed twice, and the queue is valid. */
  predicate CityValid(c: City) {
    c.stock.NonNegative() && Distinct(c.buildings) && QueueValid(c)
  }

  predicate CityOnMap(c: City, width: int, height: int) {
    0 <= c.x < width && 0 <= c.y < height
  }

  /** The first half of `work_tile`: the terrain's share. */
  function WorkTerrain(s: Yield, t: Terrain): (r: Yield)
    ensures r == s.Plus(TerrainYield(t))
  {
    match t
    case Plains => s.(food := s.food + 2, production := s.production + 1)
    case Forest => s.(food := s.food + 1, production := s.production + 2)
    case Hills => s.(production := s.production + 3, gold := s.gold + 1)
    case Coast => s.(food := s.food + 2, gold := s.gold + 2)
    case Mountains => s
    case Ocean => s
  }

  /** The second half of `work_tile`: one bonus each for granary, library
      and market. */
  function WorkBuildings(s: Yield, buildings: seq<Building>): (r: Yield)
    ensures r == s.Plus(BuildingsBonus(buildings))
  {
    var g := if Granary in buildings then s.(food := s.food + 1) else s;
    var l := if Library in buildings then g.(science := g.science + 2) else g;
    if Market in buildings then l.(gold := l.gold + 2) else l
  }

  /** `work_tile`: the terrain's yield, then a bonus for each of granary,
      library and market the city has. Only the counters change, and none
      of them decreases. */
  function WorkTile(c: City): (r: City)
    ensures r.(stock := c.stock) == c
    ensures c.stock.AtMost(r.stock)
    ensures CityValid(c) ==> CityValid(r)
  {
    c.(stock := WorkBuildings(WorkTerrain(c.stock, c.terrain), c.buildings))
  }

  /** What one turn of tile work adds: the terrain's yield plus the bonus of
      every building type present. */
  lemma WorkTileGain(c: City)
    ensures WorkTile(c).stock == c.stock.Plus(TileGain(c.terrain, c.buildings))
  {
  }

  /** With no buildings, hills add exactly three production and one gold. */
  lemma HillsWithoutBuildings(c: City)
    requires c.terrain == Hills && c.buildings == []
    ensures WorkTile(c).stock == c.stock.Plus(Yield(0, 3, 1, 0))
  {
  }

  /** Mountains and ocean yield nothing themselves: all a city there gains
      comes from its buildings. */
  lemma BarrenTerrainYieldsNothing(c: City)
    requires c.terrain == Mountains || c.terrain == Ocean
    ensures WorkTile(c).stock == c.stock.Plus(BuildingsBonus(c.buildings))
    ensures c.buildings == [] ==> WorkTile(c) == c
  {
  }

  /** Granary, library and market add one food, two science and two gold on
      top of whatever the terrain gives; the other buildings add nothing. */
  lemma BuildingBonuses(c: City, b: Building)
    requires b !in c.buildings
    ensures WorkTile(c.(buildings := c.buildings + [b])).stock == WorkTile(c).stock.Plus(BuildingBonus(b))
  {
    var bs := c.buildings + [b];
    assert forall k :: k in bs <==> k in c.buildings || k == b;
  }

  lemma {:induction false} ListBonusAppend(bs: seq<Building>, b: Building)
    ensures ListBonus(bs + [b]) == ListBonus(bs).Plus(BuildingBonus(b))
    decreases |bs|
  {
    if |bs| == 0 {
      assert bs + [b] == [b];
      assert [b][1..] == [];
    } else {
      assert (bs + [b])[1..] == bs[1..] + [b];
      ListBonusAppend(bs[1..], b);
    }
  }

  /** For a city without duplicate buildings (the menu never builds one
      twice), the gain is the terrain yield plus one bonus per entry of its
      building list. */
  lemma {:induction false} WorkTileFollowsBuildingList(c: City)
    requires Distinct(c.buildings)
    ensures WorkTile(c).stock == c.stock.Plus(TerrainYield(c.terrain)).Plus(ListBonus(c.buildings))
    decreases |c.buildings|
  {
    var bs := c.buildings;
    if |bs| == 0 {
    } else {
      var init := bs[..|bs| - 1];
      var b := bs[|bs| - 1];
      assert bs == init + [b];
      assert Distinct(init) by {
        forall i, j | 0 <= i < j < |init| ensures init[i] != init[j] {
          assert init[i] == bs[i] && init[j] == bs[j];
        }
      }
      assert b !in init by {
        forall i | 0 <= i < |init| ensures init[i] != b {
          assert init[i] == bs[i];
        }
      }
      var c0 := c.(buildings := init);
      WorkTileFollowsBuildingList(c0);
      BuildingBonuses(c0, b);
      ListBonusAppend(init, b);
      assert c0.(buildings := init + [b]) == c;
    }
  }

  /** `n` turns of tile work in a row. */
  function WorkTimes(c: City, n: nat): City
    decreases n
  {
    if n == 0 then c else WorkTimes(WorkTile(c), n - 1)
  }

  lemma TimesStep(s: Yield, g: Yield, n: nat)
    requires n > 0
    ensures s.Plus(g).Plus(g.Times(n - 1)) == s.Plus(g.Times(n))
  {
    assert (n - 1) * g.food + g.food == n * g.food;
    assert (n - 1) * g.production + g.production == n * g.production;
    assert (n - 1) * g.gold + g.gold == n * g.gold;
    assert (n - 1) * g.science + g.science == n * g.science;
  }

  /** Counters grow linearly: `n` turns of work add `n` times one turn's
      gain, and change nothing else. */
  lemma {:induction false} WorkTimesAccumulates(c: City, n: nat)
    ensures WorkTimes(c, n).stock == c.stock.Plus(TileGain(c.terrain, c.buildings).Times(n))
    ensures WorkTimes(c, n).(stock := c.stock) == c
    decreases n
  {
    if n > 0 {
      var w := WorkTile(c);
      WorkTileGain(c);
      WorkTimesAccumulates(w, n - 1);
      TimesStep(c.stock, TileGain(c.terrain, c.buildings), n);
    }
  }

  /** `set_production`: the new order replaces the old one and starts from
      zero progress. */
  function SetProduction(c: City, u: UnitType): (r: City)
    ensures r.queue == InProgress(u, 0)
    ensures r.(queue := c.queue) == c
    ensures CityValid(c.(queue := Idle)) ==> CityValid(r)
  {
    CostsPositive(u, Agriculture);
    c.(queue := InProgress(u, 0))
  }

  /** Switching orders keeps nothing of the earlier order. */
  lemma SwitchingOrdersDiscardsProgress(c: City, u: UnitType, v: UnitType)
    ensures SetProduction(SetProduction(c, u), v) == SetProduction(c, v)
  {
  }

  /** `process_turn`'s result: the city afterwards, and the unit it
      finished, if any. */
  datatype CityTurn = CityTurn(city: City, spawned: Option<Unit>)

  /** Whether this turn finishes the order: its progress plus the city's
      production counter after working its tile reaches the unit's cost. */
  predicate Completes(c: City) {
    c.queue.InProgress? && c.queue.progress + WorkTile(c).stock.production >= UnitCost(c.queue.order)
  }

  /** `process_turn` of a city: work the tile, then add the (cumulative)
      production counter to the order's progress; an order that reaches its
      cost yields one unit at the city, owned by the city's civilization,
      and the queue empties, dropping any excess. `unitId` names the unit. */
  function CityProcessTurn(c: City, unitId: nat): (r: CityTurn)
    ensures r.city.(queue := c.queue) == WorkTile(c)
    ensures r.spawned.Some? <==> Completes(c)
    ensures Completes(c) ==>
              r.city.queue == Idle && r.spawned == Some(NewUnit(unitId, c.queue.order, c.x, c.y, c.owner))
    ensures c.queue.Idle? ==> r.city.queue == Idle
    ensures c.queue.InProgress? && !Completes(c) ==>
              r.city.queue == InProgress(c.queue.order, c.queue.progress + WorkTile(c).stock.production)
    ensures CityValid(c) ==> CityValid(r.city)
  {
    var w := WorkTile(c);
    match c.queue
    case Idle => CityTurn(w, None)
    case InProgress(u, p) =>
      var progress := p + w.stock.production;
      if progress >= UnitCost(u) then
        CityTurn(w.(queue := Idle), Some(NewUnit(unitId, u, c.x, c.y, c.owner)))
      else
        CityTurn(w.(queue := InProgress(u, progress)), None)
  }

  /** `n` turns of one city in a row, with the number of units it finished. */
  function CityTurns(c: City, n: nat): (City, nat)
    decreases n
  {
    if n == 0 then (c, 0)
    else
      var t := CityProcessTurn(c, 0);
      var rest := CityTurns(t.city, n - 1);
      (rest.0, rest.1 + (if t.spawned.Some? then 1 else 0))
  }

  /** A city with no order only gathers yields: it never produces a unit. */
  lemma {:induction false} IdleCityBuildsNothing(c: City, n: nat)
    requires c.queue.Idle?
    ensures CityTurns(c, n).1 == 0 && CityTurns(c, n).0.queue.Idle?
    decreases n
  {
    if n > 0 {
      IdleCityBuildsNothing(CityProcessTurn(c, 0).city, n - 1);
    }
  }

  /** One order yields at most one unit, however many turns pass. */
  lemma {:induction false} OneUnitPerOrder(c: City, n: nat)
    ensures CityTurns(c, n).1 <= (if c.queue.InProgress? then 1 else 0)
    decreases n
  {
    if n > 0 {
      var t := CityProcessTurn(c, 0);
      if t.spawned.Some? {
        IdleCityBuildsNothing(t.city, n - 1);
      } else {
        OneUnitPerOrder(t.city, n - 1);
      }
    }
  }

  /** On productive terrain an order is finished within as many turns as
      it still lacks production points, and yields exactly one unit. */
  lemma {:induction false} OrderCompletes(c: City, n: nat)
    requires c.queue.InProgress?
    requires CityValid(c) && TerrainYield(c.terrain).production >= 1
    requires n >= UnitCost(c.queue.order) - c.queue.progress
    ensures CityTurns(c, n).1 == 1
    decreases n
  {
    var t := CityProcessTurn(c, 0);
    if t.spawned.Some? {
      IdleCityBuildsNothing(t.city, n - 1);
    } else {
      WorkTileGain(c);
      assert WorkTile(c).stock.production >= 1;
      OrderCompletes(t.city, n - 1);
    }
  }

  /** A city whose terrain gives no production (mountains, coast, ocean) and
      whose counter is still zero never finishes an order: no building adds
      production. */
  lemma {:induction false} BarrenCityNeverBuilds(c: City, n: nat)
    requires TerrainYield(c.terrain).production == 0 && c.stock.production == 0
    requires QueueValid(c)
    ensures CityTurns(c, n).1 == 0
    decreases n
  {
    if n > 0 {
      var t := CityProcessTurn(c, 0);
      assert !Completes(c);
      BarrenCityNeverBuilds(t.city, n - 1);
    }
  }

  /** 1 + 2 + ... + k. */
  function Triangle(k: nat): nat {
    if k == 0 then 0 else Triangle(k - 1) + k
  }

  /** Progress grows faster every turn, because the cumulative production
      counter, not one turn's yield, is added: after `k` turns without
      completion it has grown by k * production + Triangle(k) * gain. */
  lemma {:induction false} ProgressAfterTurns(c: City, k: nat)
    requires c.queue.InProgress?
    ensures var g := TileGain(c.terrain, c.buildings).production;
            CityTurns(c, k).1 == 0 ==>
              CityTurns(c, k).0.queue ==
                InProgress(c.queue.order, c.queue.progress + k * c.stock.production + Triangle(k) * g)
    decreases k
  {
    if k > 0 {
      var t := CityProcessTurn(c, 0);
      if t.spawned.None? {
        var d := t.city;
        WorkTileGain(c);
        ProgressAfterTurns(d, k - 1);
        var g := TileGain(c.terrain, c.buildings).production;
        ProgressStep(c.queue.progress, c.stock.production, g, k);
      }
    }
  }

  /** The arithmetic step of `ProgressAfterTurns`. */
  lemma ProgressStep(p: int, s: int, g: int, k: nat)
    requires k > 0
    ensures (p + s + g) + (k - 1) * (s + g) + Triangle(k - 1) * g == p + k * s + Triangle(k) * g
  {
    assert (k - 1) * (s + g) == (k - 1) * s + (k - 1) * g;
  }

  /** A building is added on the spot, and only if the city does not have
      one of that type yet; its cost is never charged. */
  function AddBuilding(c: City, b: Building): (r: Result<City>)
    ensures r.Ok? <==> b !in c.buildings
    ensures r.Err? ==> r.error == InvalidOrder
    ensures r.Ok? ==> r.value.buildings == c.buildings + [b] && r.value.(buildings := c.buildings) == c
    ensures r.Ok? && CityValid(c) ==> CityValid(r.value)
  {
    if b in c.buildings then Err(InvalidOrder)
    else
      var bs := c.buildings + [b];
      assert Distinct(c.buildings) ==> Distinct(bs) by {
        if Distinct(c.buildings) {
          forall i, j | 0 <= i < j < |bs| ensures bs[i] != bs[j] {
            if j < |c.buildings| {
              assert bs[i] == c.buildings[i] && bs[j] == c.buildings[j];
            } else {
              assert bs[i] == c.buildings[i];
            }
          }
        }
      }
      Ok(c.(buildings := bs))
  }

  /** The buildings the city menu offers: each type the city does not have
      yet, in declaration order. */
  method AvailableBuildings(c: City) returns (r: seq<Building>)
    ensures forall b :: b in r <==> b !in c.buildings
    ensures Distinct(r)
    ensures forall b :: b in r ==> AddBuilding(c, b).Ok?
  {
    EnumerationsComplete();
    r := Select(AllBuildings, b => b !in c.buildings);
  }
}

=== FILE: civs.dfy ===
/** Civilizations: the per-turn yield totals, the active research with
    `research_tech` and `complete_research`, and the two availability
    filters of the menus (technologies whose prerequisites are met, unit
    types the city menu offers). */
module Civs {

  import opened Common
  import opened Tables
  import opened Units
  import opened Cities

  /** Diplomatic status towards another civilization, kept by name. */
  datatype Relation = Peace | War

  const StartingGold: int := 100

  /** A civilization. `unlocked` is the set of technologies whose flag is
      set in the technology table; `discovered` lists them in the order they
      were completed. `id` stands for the object identity that cities and
      units point back to. */
  datatype Civ = Civ(
    id: nat,
    name: string,
    leader: string,
    cities: seq<City>,
    units: seq<Unit>,
    unlocked: set<Tech>,
    discovered: seq<Tech>,
    activeResearch: Option<Tech>,
    gold: int,
    sciencePerTurn: int,
    goldPerTurn: int,
    diplomacy: map<string, Relation>)

  /** A civilization as created: no cities, no units, nothing known, no
      relations, and the starting treasury. */
  function NewCiv(id: nat, name: string, leader: string): Civ {
    Civ(id, name, leader, [], [], {}, [], None, StartingGold, 0, 0, map[])
  }

  /** The technology table and the discovery list agree, no technology is
      listed twice, and the active research never names a known one. */
  predicate KnowledgeValid(civ: Civ) {
    && Distinct(civ.discovered)
    && (forall t :: t in civ.unlocked <==> t in civ.discovered)
    && (civ.activeResearch.Some? ==> civ.activeResearch.value !in civ.unlocked)
  }

  /** What every civilization of a reachable game satisfies. */
  predicate CivValid(civ: Civ) {
    && KnowledgeValid(civ)
    && (forall i :: 0 <= i < |civ.cities| ==> CityValid(civ.cities[i]))
    && (forall i :: 0 <= i < |civ.cities| ==> civ.cities[i].owner == civ.id)
    && (forall i :: 0 <= i < |civ.units| ==> civ.units[i].owner == civ.id)
    && (forall i :: 0 <= i < |civ.units| ==> MovesInRange(civ.units[i]))
  }

  /** The four counters summed over a list of cities. */
  function Total(cs: seq<City>): Yield {
    if |cs| == 0 then NoYield else cs[0].stock.Plus(Total(cs[1..]))
  }

  lemma {:induction false} TotalAppend(cs: seq<City>, c: City)
    ensures Total(cs + [c]) == Total(cs).Plus(c.stock)
    decreases |cs|
  {
    if |cs| == 0 {
      assert cs + [c] == [c];
      assert [c][1..] == [];
    } else {
      assert (cs + [c])[1..] == cs[1..] + [c];
      TotalAppend(cs[1..], c);
    }
  }

  /** Cities whose counters are pointwise no larger have totals no larger. */
  lemma {:induction false} TotalMonotone(a: seq<City>, b: seq<City>)
    requires |a| == |b|
    requires forall i :: 0 <= i < |a| ==> a[i].stock.AtMost(b[i].stock)
    ensures Total(a).AtMost(Total(b))
    decreases |a|
  {
    if |a| > 0 {
      assert forall i :: 0 <= i < |a| - 1 ==> a[1..][i] == a[i + 1] && b[1..][i] == b[i + 1];
      TotalMonotone(a[1..], b[1..]);
      assert a[0].stock.AtMost(b[0].stock);
    }
  }

  lemma {:induction false} TotalNonNegative(cs: seq<City>)
    requires forall i :: 0 <= i < |cs| ==> cs[i].stock.NonNegative()
    ensures Total(cs).NonNegative()
    decreases |cs|
  {
    if |cs| > 0 {
      assert forall i :: 0 <= i < |cs| - 1 ==> cs[1..][i] == cs[i + 1];
      TotalNonNegative(cs[1..]);
      assert cs[0].stock.NonNegative();
    }
  }

  /** `calculate_yields`: science per turn is the science counter summed
      over all cities; gold per turn the gold counter summed over all
      cities, less one gold of upkeep per unit. Nothing else changes. */
  function CalculateYields(civ: Civ): (r: Civ)
    ensures r.sciencePerTurn == Total(civ.cities).science
    ensures r.goldPerTurn == Total(civ.cities).gold - |civ.units|
    ensures r.(sciencePerTurn := civ.sciencePerTurn, goldPerTurn := civ.goldPerTurn) == civ
  {
    var total := Total(civ.cities);
    civ.(sciencePerTurn := total.science, goldPerTurn := total.gold - |civ.units|)
  }

  /** The yields are a recomputation from cities and units, not an
      accumulation: a second call changes nothing. */
  lemma CalculateYieldsIdempotent(civ: Civ)
    ensures CalculateYields(CalculateYields(civ)) == CalculateYields(civ)
  {
  }

  /** In a valid civilization science per turn is never negative, and gold
      per turn is at least minus the number of units. */
  lemma YieldBounds(civ: Civ)
    requires CivValid(civ)
    ensures CalculateYields(civ).sciencePerTurn >= 0
    ensures CalculateYields(civ).goldPerTurn >= -|civ.units|
  {
    TotalNonNegative(civ.cities);
  }

  /** `research_tech`'s return value together with the civilization after. */
  datatype Started = Started(ok: bool, civ: Civ)

  /** `research_tech`: refuses a technology already unlocked or already
      discovered; otherwise points research at it, replacing whatever was
      being researched. Prerequisites are not consulted. */
  function ResearchTech(civ: Civ, t: Tech): (r: Started)
    ensures r.ok <==> t !in civ.unlocked && t !in civ.discovered
    ensures r.ok ==> r.civ == civ.(activeResearch := Some(t))
    ensures !r.ok ==> r.civ == civ
  {
    if t in civ.unlocked then Started(false, civ)
    else if t !in civ.discovered then Started(true, civ.(activeResearch := Some(t)))
    else Started(false, civ)
  }

  /** With the table and the list in agreement, the second test of
      `research_tech` never decides anything: it starts exactly the
      technologies not yet unlocked. */
  lemma ResearchTechAcceptsUnknown(civ: Civ, t: Tech)
    requires KnowledgeValid(civ)
    ensures ResearchTech(civ, t).ok <==> t !in civ.unlocked
    ensures KnowledgeValid(ResearchTech(civ, t).civ)
  {
  }

  /** `complete_research`: the technology under research becomes unlocked,
      is appended to the discovery list, and the active research is cleared; with
      nothing under research nothing happens. Known technologies stay
      known. */
  function CompleteResearch(civ: Civ): (r: Civ)
    ensures civ.activeResearch.None? ==> r == civ
    ensures civ.activeResearch.Some? ==>
              var t := civ.activeResearch.value;
              && r.unlocked == civ.unlocked + {t}
              && r.discovered == civ.discovered + [t]
              && r.activeResearch.None?
              && r.(unlocked := civ.unlocked, discovered := civ.discovered, activeResearch := civ.activeResearch) == civ
    ensures civ.unlocked <= r.unlocked && r.activeResearch.None?
    ensures KnowledgeValid(civ) ==> KnowledgeValid(r)
  {
    match civ.activeResearch
    case None => civ
    case Some(t) =>
      var r := civ.(unlocked := civ.unlocked + {t}, discovered := civ.discovered + [t], activeResearch := None);
      assert KnowledgeValid(civ) ==> Distinct(r.discovered) by {
        if KnowledgeValid(civ) {
          var d := r.discovered;
          forall i, j | 0 <= i < j < |d| ensures d[i] != d[j] {
            if j < |civ.discovered| {
              assert d[i] == civ.discovered[i] && d[j] == civ.discovered[j];
            } else {
              assert d[i] == civ.discovered[i];
            }
          }
        }
      }
      r
  }

  /** Starting research on an unknown technology and completing it adds
      exactly that technology, once, to both the table and the list. */
  lemma ResearchThenComplete(civ: Civ, t: Tech)
    requires KnowledgeValid(civ) && t !in civ.unlocked
    ensures var r := CompleteResearch(ResearchTech(civ, t).civ);
            && r.unlocked == civ.unlocked + {t}
            && r.discovered == civ.discovered + [t]
            && multiset(r.discovered)[t] == 1
            && r.activeResearch.None?
            && KnowledgeValid(r)
  {
    assert t !in civ.discovered;
    assert multiset(civ.discovered)[t] == 0;
  }

  /** All of `reqs` are unlocked: the `all(...)` of the technology menu. */
  function AllUnlocked(reqs: seq<Tech>, unlocked: set<Tech>): (r: bool)
    ensures r <==> forall q :: q in reqs ==> q in unlocked
  {
    if |reqs| == 0 then true
    else
      assert forall q :: q in reqs <==> q == reqs[0] || q in reqs[1..];
      reqs[0] in unlocked && AllUnlocked(reqs[1..], unlocked)
  }

  /** A technology may be started from the menu: it is not unlocked yet
      and every prerequisite listed for it is. */
  predicate Researchable(civ: Civ, t: Tech) {
    t !in civ.unlocked && forall q :: q in Requirements(t) ==> q in civ.unlocked
  }

  /** The list the technology menu offers, in declaration order. */
  method AvailableTechs(civ: Civ) returns (r: seq<Tech>)
    ensures forall t :: t in r <==> Researchable(civ, t)
    ensures Distinct(r)
  {
    EnumerationsComplete();
    r := Select(AllTechs, t => t !in civ.unlocked && AllUnlocked(Requirements(t), civ.unlocked));
  }

  /** What a civilization knowing only agriculture may research. */
  lemma ResearchableAtStart(civ: Civ, t: Tech)
    requires civ.unlocked == {Agriculture}
    ensures Researchable(civ, t) <==> t in [Pottery, Archery, Mining, TheWheel]
  {
    match t {
      case Agriculture =>
      case Pottery =>
      case Writing => assert Pottery in Requirements(t);
      case Archery =>
      case Mining =>
      case BronzeWorking => assert Mining in Requirements(t);
      case TheWheel =>
      case Masonry => assert Mining in Requirements(t);
      case HorsebackRiding => assert TheWheel in Requirements(t);
      case Mathematics => assert Writing in Requirements(t);
    }
  }

  /** Completing the last missing prerequisite of a technology makes it
      researchable. */
  lemma CompletionOpensSuccessors(civ: Civ, t: Tech)
    requires civ.activeResearch.Some?
    requires t !in civ.unlocked && Some(t) != civ.activeResearch
    requires forall q :: q in Requirements(t) ==> q in civ.unlocked || Some(q) == civ.activeResearch
    ensures Researchable(CompleteResearch(civ), t)
  {
  }

  /** `research_tech` starts a technology whose prerequisites are missing:
      only the menu filters on them. */
  lemma ResearchIgnoresPrerequisites(civ: Civ)
    requires KnowledgeValid(civ) && civ.unlocked == {Agriculture}
    ensures !Researchable(civ, Mathematics)
    ensures ResearchTech(civ, Mathematics).ok
  {
    assert Writing in Requirements(Mathematics);
  }

  /** The technology menu: available only while nothing is under research,
      and it offers only researchable technologies. */
  function StartResearch(civ: Civ, t: Tech): (r: Result<Civ>)
    ensures civ.activeResearch.Some? ==> r == Err(ResearchInProgress)
    ensures r.Ok? <==> civ.activeResearch.None? && Researchable(civ, t)
    ensures r.Err? && civ.activeResearch.None? ==> r.error == InvalidTechnology
    ensures r.Ok? && KnowledgeValid(civ) ==> r.value == civ.(activeResearch := Some(t))
    ensures r.Ok? && t !in civ.discovered ==> r.value == civ.(activeResearch := Some(t))
    ensures r.Ok? && t in civ.discovered ==> r.value == civ
    ensures r.Ok? && KnowledgeValid(civ) ==> KnowledgeValid(r.value)
  {
    if civ.activeResearch.Some? then Err(ResearchInProgress)
    else if !AllUnlocked(Requirements(t), civ.unlocked) || t in civ.unlocked then Err(InvalidTechnology)
    else Ok(ResearchTech(civ, t).civ)
  }

  /** The city menu offers settlers always, every other unit type once
      bronze working is known. */
  predicate UnitAvailable(civ: Civ, u: UnitType) {
    u == Settler || BronzeWorking in civ.unlocked
  }

  /** The unit list of the city menu, in declaration order. */
  method AvailableUnits(civ: Civ) returns (r: seq<UnitType>)
    ensures forall u :: u in r <==> UnitAvailable(civ, u)
    ensures Distinct(r)
  {
    EnumerationsComplete();
    r := Select(AllUnitTypes, u => u == Settler || BronzeWorking in civ.unlocked);
  }

  /** The research check of the turn: the technology under research is
      completed when this turn's science per turn reaches its cost. Science
      is never spent, so nothing carries over between turns. */
  function ResearchStep(civ: Civ): (r: Civ)
    ensures r.unlocked != civ.unlocked <==>
              civ.activeResearch.Some? && civ.sciencePerTurn >= TechCost(civ.activeResearch.value)
                && civ.activeResearch.value !in civ.unlocked
    ensures r.activeResearch.Some? ==> r == civ
    ensures civ.activeResearch.Some? && civ.sciencePerTurn >= TechCost(civ.activeResearch.value) ==>
              r == CompleteResearch(civ)
    ensures !(civ.activeResearch.Some? && civ.sciencePerTurn >= TechCost(civ.activeResearch.value)) ==> r == civ
    ensures civ.unlocked <= r.unlocked
    ensures r.(unlocked := civ.unlocked, discovered := civ.discovered, activeResearch := civ.activeResearch) == civ
    ensures KnowledgeValid(civ) ==> KnowledgeValid(r)
  {
    match civ.activeResearch
    case None => civ
    case Some(t) => if civ.sciencePerTurn >= TechCost(t) then CompleteResearch(civ) else civ
  }
}

=== FILE: commands.dfy ===
/** The commands the player issues between turns: founding a city with a
    settler, the orders of the city menu, the technology menu, a step of
    the unit menu, and war and peace in the diplomacy menu. Each command
    either changes the game as described or is refused with the reason. */
module Commands {

  import opened Common
  import opened Tables
  import opened Units
  import opened Cities
  import opened Civs
  import opened GameState

  /** The decimal digit `d`. */
  function DigitChar(d: nat): char
    requires d < 10
  {
    ('0' as int + d) as char
  }

  predicate IsDigits(s: string) {
    forall i :: 0 <= i < |s| ==> '0' <= s[i] <= '9'
  }

  /** `str` of a natural number: its decimal digits, most significant
      first, without leading zeros. */
  function NatToString(n: nat): (r: string)
    ensures |r| >= 1 && IsDigits(r)
    ensures (r[0] == '0') <==> n == 0
    decreases n
  {
    if n < 10 then [DigitChar(n)] else NatToString(n / 10) + [DigitChar(n % 10)]
  }

  /** The number a string of decimal digits denotes. */
  function ParseNat(s: string): nat
    requires IsDigits(s)
    decreases |s|
  {
    if |s| == 0 then 0 else 10 * ParseNat(s[..|s| - 1]) + (s[|s| - 1] as int - '0' as int)
  }

  /** Reading back the digits gives the number: distinct numbers have
      distinct names. */
  lemma {:induction false} ParseNatToString(n: nat)
    ensures ParseNat(NatToString(n)) == n
    decreases n
  {
    var s := NatToString(n);
    if n >= 10 {
      ParseNatToString(n / 10);
      assert s[..|s| - 1] == NatToString(n / 10);
    }
  }

  /** The name a new city takes when the name prompt is left empty. */
  function DefaultCityName(n: nat): string {
    "Город " + NatToString(n)
  }

  /** A settler's "found a city" order (`found_city`, reached from the unit
      menu, which runs only while the unit has moves left). The new city
      stands on the settler's square, belongs to the player and is named
      from `input`, or numbered after the player's cities; it is recorded
      on the map. The settler leaves the player's units and, if it is
      there, the map's unit list. `terrain` is the city's random terrain. */
  function FoundCity(g: Game, unitIndex: nat, input: string, terrain: Terrain): (r: Result<Game>)
    ensures unitIndex >= |g.player.units| ==> r == Err(UnknownEntity)
    ensures unitIndex < |g.player.units| ==>
              var u := g.player.units[unitIndex];
              && (r.Ok? <==> u.moves > 0 && u.kind == Settler)
              && (u.moves <= 0 ==> r == Err(NoMovesRemaining))
              && (u.moves > 0 && u.kind != Settler ==> r == Err(NotASettler))
    ensures r.Ok? ==>
              var u := g.player.units[unitIndex];
              var p := r.value.player;
              var name := OrDefault(input, DefaultCityName(|g.player.cities| + 1));
              && p.cities == g.player.cities + [NewCity(g.nextId, name, u.x, u.y, g.player.id, terrain)]
              && |p.units| == |g.player.units| - 1
              && (forall k :: 0 <= k < |p.units| ==>
                    p.units[k] == g.player.units[if k < unitIndex then k else k + 1])
              && p.(cities := g.player.cities, units := g.player.units) == g.player
              && r.value.world == g.world.(cityIds := g.world.cityIds + [g.nextId],
                                           unitIds := RemoveFirst(g.world.unitIds, u.id))
              && r.value.nextId == g.nextId + 1
              && r.value.(player := g.player, world := g.world, nextId := g.nextId) == g
  {
    if unitIndex >= |g.player.units| then Err(UnknownEntity)
    else
      var u := g.player.units[unitIndex];
      if u.moves <= 0 then Err(NoMovesRemaining)
      else if u.kind != Settler then Err(NotASettler)
      else
        var name := OrDefault(input, DefaultCityName(|g.player.cities| + 1));
        var city := NewCity(g.nextId, name, u.x, u.y, g.player.id, terrain);
        var units := g.player.units[..unitIndex] + g.player.units[unitIndex + 1..];
        var w := g.world.(cityIds := g.world.cityIds + [g.nextId], unitIds := RemoveFirst(g.world.unitIds, u.id));
        Ok(g.(player := g.player.(cities := g.player.cities + [city], units := units), world := w, nextId := g.nextId + 1))
  }

  /** Replacing the player's civilization by a valid one on the map, with
      the same name and relations, keeps the game well-formed. */
  lemma PlayerChangeWellFormed(g: Game, p: Civ)
    requires WellFormed(g)
    requires CivValid(p) && CivOnMap(p, g.world.width, g.world.height)
    requires p.name == g.player.name && p.diplomacy == g.player.diplomacy
    ensures WellFormed(g.(player := p))
  {
    var h := g.(player := p);
    assert DiplomacySymmetric(h);
  }

  /** A player civilization that founds a city stays valid and on the map. */
  lemma FoundCityCivValid(g: Game, unitIndex: nat, input: string, terrain: Terrain)
    requires WellFormed(g) && FoundCity(g, unitIndex, input, terrain).Ok?
    ensures var p := FoundCity(g, unitIndex, input, terrain).value.player;
            CivValid(p) && CivOnMap(p, g.world.width, g.world.height)
  {
    var p := FoundCity(g, unitIndex, input, terrain).value.player;
    var n := |g.player.cities|;
    forall i | 0 <= i < |p.cities|
      ensures CityValid(p.cities[i]) && p.cities[i].owner == p.id
      ensures CityOnMap(p.cities[i], g.world.width, g.world.height)
    {
      if i < n {
        assert p.cities[i] == g.player.cities[i];
      }
    }
    forall k | 0 <= k < |p.units|
      ensures p.units[k].owner == p.id && MovesInRange(p.units[k])
      ensures OnMap(p.units[k], g.world.width, g.world.height)
    {
      assert p.units[k] == g.player.units[if k < unitIndex then k else k + 1];
    }
  }

  /** Founding a city keeps the game well-formed: the new city gets a
      fresh id, and the map's lists only lose the settler. */
  lemma FoundCityWellFormed(g: Game, unitIndex: nat, input: string, terrain: Terrain)
    requires WellFormed(g) && FoundCity(g, unitIndex, input, terrain).Ok?
    ensures WellFormed(FoundCity(g, unitIndex, input, terrain).value)
  {
    var h := FoundCity(g, unitIndex, input, terrain).value;
    FoundCityCivValid(g, unitIndex, input, terrain);
    PlayerChangeWellFormed(g, h.player);
    var u := g.player.units[unitIndex];
    assert h.world.unitIds == RemoveFirst(g.world.unitIds, u.id);
    assert RegistryBelow(h.world, h.nextId);
    assert h == g.(player := h.player).(world := h.world, nextId := h.nextId);
  }

  /** Founding a city from the setup's settler, leaving the name prompt
      empty: the player has two cities, the second named "Город 2" on the
      settler's square, no units, the map keeps only the AI warriors, and
      the game goes on. */
  lemma FoundSecondCity(civInput: string, leaderInput: string, t0: Terrain, a0: AiStart, a1: AiStart, t: Terrain)
    ensures var g := InitialGame(civInput, leaderInput, t0, a0, a1);
            var r := FoundCity(g, 0, "", t);
            && r.Ok?
            && |r.value.player.cities| == 2 && r.value.player.units == []
            && r.value.player.cities[1].name == "Город 2"
            && r.value.player.cities[1].x == 10 && r.value.player.cities[1].y == 7
            && r.value.world.cityIds == [0, 2, 4, 6] && r.value.world.unitIds == [3, 5]
            && CheckVictory(r.value) == r.value
  {
    var g := InitialGame(civInput, leaderInput, t0, a0, a1);
    assert NatToString(2) == "2";
    assert OrDefault("", DefaultCityName(|g.player.cities| + 1)) == "Город 2";
    SettlerRemoved();
    var r := FoundCity(g, 0, "", t);
    assert r.Ok?;
    assert r.value.player.cities == g.player.cities + [NewCity(6, "Город 2", 10, 7, g.player.id, t)];
  }

  /** The setup's settler leaving the map's unit list. */
  lemma SettlerRemoved()
    ensures RemoveFirst([1, 3, 5], 1) == [3, 5]
  {
  }

  /** "Set production" in the city menu: the menu offers a unit type only
      when it is available to the player; the order replaces the old one
      and its progress. */
  function SetCityProduction(g: Game, cityIndex: nat, u: UnitType): (r: Result<Game>)
    ensures cityIndex >= |g.player.cities| ==> r == Err(UnknownEntity)
    ensures cityIndex < |g.player.cities| ==>
              (r.Ok? <==> UnitAvailable(g.player, u)) && (r.Err? ==> r.error == InvalidOrder)
    ensures r.Ok? ==>
              && r.value.player.cities == g.player.cities[cityIndex := SetProduction(g.player.cities[cityIndex], u)]
              && r.value.player.cities[cityIndex].queue == InProgress(u, 0)
              && r.value == g.(player := r.value.player)
              && r.value.player == g.player.(cities := r.value.player.cities)
  {
    if cityIndex >= |g.player.cities| then Err(UnknownEntity)
    else if !UnitAvailable(g.player, u) then Err(InvalidOrder)
    else
      var c := SetProduction(g.player.cities[cityIndex], u);
      Ok(g.(player := g.player.(cities := g.player.cities[cityIndex := c])))
  }

  /** "Build" in the city menu: the building is added on the spot if the
      city does not have one of its type. */
  function BuildInCity(g: Game, cityIndex: nat, b: Building): (r: Result<Game>)
    ensures cityIndex >= |g.player.cities| ==> r == Err(UnknownEntity)
    ensures cityIndex < |g.player.cities| ==>
              (r.Ok? <==> b !in g.player.cities[cityIndex].buildings) && (r.Err? ==> r.error == InvalidOrder)
    ensures r.Ok? ==>
              && |r.value.player.cities| == |g.player.cities|
              && r.value.player.cities[cityIndex].buildings == g.player.cities[cityIndex].buildings + [b]
              && r.value.player.cities[cityIndex].(buildings := g.player.cities[cityIndex].buildings)
                   == g.player.cities[cityIndex]
              && (forall i :: 0 <= i < |g.player.cities| && i != cityIndex ==>
                    r.value.player.cities[i] == g.player.cities[i])
              && r.value == g.(player := r.value.player)
              && r.value.player == g.player.(cities := r.value.player.cities)
  {
    if cityIndex >= |g.player.cities| then Err(UnknownEntity)
    else
      match AddBuilding(g.player.cities[cityIndex], b)
      case Err(e) => Err(e)
      case Ok(c) => Ok(g.(player := g.player.(cities := g.player.cities[cityIndex := c])))
  }

  /** Putting a valid city of the player's in the place of another keeps
      the player's civilization valid and on the map. */
  lemma ReplaceCityValid(p: Civ, i: nat, c: City, width: int, height: int)
    requires CivValid(p) && CivOnMap(p, width, height) && i < |p.cities|
    requires CityValid(c) && c.owner == p.id && CityOnMap(c, width, height)
    ensures CivValid(p.(cities := p.cities[i := c])) && CivOnMap(p.(cities := p.cities[i := c]), width, height)
  {
  }

  lemma SetCityProductionWellFormed(g: Game, cityIndex: nat, u: UnitType)
    requires WellFormed(g) && SetCityProduction(g, cityIndex, u).Ok?
    ensures WellFormed(SetCityProduction(g, cityIndex, u).value)
  {
    var c := g.player.cities[cityIndex];
    assert CityValid(c.(queue := Idle));
    ReplaceCityValid(g.player, cityIndex, SetProduction(c, u), g.world.width, g.world.height);
    PlayerChangeWellFormed(g, g.player.(cities := g.player.cities[cityIndex := SetProduction(c, u)]));
  }

  lemma BuildInCityWellFormed(g: Game, cityIndex: nat, b: Building)
    requires WellFormed(g) && BuildInCity(g, cityIndex, b).Ok?
    ensures WellFormed(BuildInCity(g, cityIndex, b).value)
  {
    var c := AddBuilding(g.player.cities[cityIndex], b).value;
    ReplaceCityValid(g.player, cityIndex, c, g.world.width, g.world.height);
    PlayerChangeWellFormed(g, g.player.(cities := g.player.cities[cityIndex := c]));
  }

  /** A building can be bought once per city: a second order of the same
      type is refused. */
  lemma BuildTwiceRefused(g: Game, cityIndex: nat, b: Building)
    requires BuildInCity(g, cityIndex, b).Ok?
    ensures BuildInCity(BuildInCity(g, cityIndex, b).value, cityIndex, b) == Err(InvalidOrder)
  {
    var h := BuildInCity(g, cityIndex, b).value;
    assert b in h.player.cities[cityIndex].buildings;
  }

  /** The technology menu's choice: the player starts research on a
      technology it offers. */
  function StartPlayerResearch(g: Game, t: Tech): (r: Result<Game>)
    ensures r.Ok? <==> g.player.activeResearch.None? && Researchable(g.player, t)
    ensures r.Err? ==> r.error == (if g.player.activeResearch.Some? then ResearchInProgress else InvalidTechnology)
    ensures r.Ok? && KnowledgeValid(g.player) ==> r.value == g.(player := g.player.(activeResearch := Some(t)))
    ensures r.Ok? && t !in g.player.discovered ==> r.value == g.(player := g.player.(activeResearch := Some(t)))
    ensures r.Ok? && t in g.player.discovered ==> r.value == g
  {
    match StartResearch(g.player, t)
    case Err(e) => Err(e)
    case Ok(p) => Ok(g.(player := p))
  }

  lemma StartPlayerResearchWellFormed(g: Game, t: Tech)
    requires WellFormed(g) && StartPlayerResearch(g, t).Ok?
    ensures WellFormed(StartPlayerResearch(g, t).value)
  {
    PlayerChangeWellFormed(g, g.player.(activeResearch := Some(t)));
  }

  /** One step chosen in the unit menu. */
  function MoveUnit(g: Game, unitIndex: nat, d: Direction): (r: Result<Game>)
    ensures unitIndex >= |g.player.units| ==> r == Err(UnknownEntity)
    ensures unitIndex < |g.player.units| ==>
              var u := g.player.units[unitIndex];
              && (u.moves <= 0 ==> r == Err(NoMovesRemaining))
              && (u.moves > 0 && r.Err? ==> r.error == OutOfBounds)
              && (OnMap(u, g.world.width, g.world.height) ==>
                    (r.Ok? <==> u.moves > 0 && OnMap(u.(x := u.x + Offset(d).0, y := u.y + Offset(d).1), g.world.width, g.world.height)))
    ensures r.Ok? ==> |r.value.player.units| == |g.player.units|
    ensures r.Ok? ==>
              var u := g.player.units[unitIndex];
              var v := r.value.player.units[unitIndex];
              && v.x == u.x + Offset(d).0 && v.y == u.y + Offset(d).1 && v.moves == u.moves - 1
              && v == Move(u, Offset(d).0, Offset(d).1).unit
              && (forall k :: 0 <= k < |g.player.units| && k != unitIndex ==>
                    r.value.player.units[k] == g.player.units[k])
              && r.value == g.(player := r.value.player)
              && r.value.player == g.player.(units := r.value.player.units)
  {
    if unitIndex >= |g.player.units| then Err(UnknownEntity)
    else
      match ControlMove(g.player.units[unitIndex], d, g.world.width, g.world.height)
      case Err(e) => Err(e)
      case Ok(v) => Ok(g.(player := g.player.(units := g.player.units[unitIndex := v])))
  }

  lemma MoveUnitWellFormed(g: Game, unitIndex: nat, d: Direction)
    requires WellFormed(g) && MoveUnit(g, unitIndex, d).Ok?
    ensures WellFormed(MoveUnit(g, unitIndex, d).value)
  {
    var u := g.player.units[unitIndex];
    var v := ControlMove(u, d, g.world.width, g.world.height).value;
    var p := g.player.(units := g.player.units[unitIndex := v]);
    assert OnMap(u, g.world.width, g.world.height);
    assert CivValid(p) && CivOnMap(p, g.world.width, g.world.height);
    PlayerChangeWellFormed(g, p);
  }

  /** The player's two moves a turn: a third step in the same turn is
      refused. */
  lemma TwoStepsPerTurn(g: Game, unitIndex: nat, d1: Direction, d2: Direction, d3: Direction)
    requires unitIndex < |g.player.units| && MovesInRange(g.player.units[unitIndex])
    requires MoveUnit(g, unitIndex, d1).Ok?
    requires MoveUnit(MoveUnit(g, unitIndex, d1).value, unitIndex, d2).Ok?
    ensures MoveUnit(MoveUnit(MoveUnit(g, unitIndex, d1).value, unitIndex, d2).value, unitIndex, d3)
              == Err(NoMovesRemaining)
  {
  }

  /** What the diplomacy menu offers for a chosen civilization. */
  datatype Stance = DeclareWar | ProposePeace | Information

  /** Sets the relation between the player and the `i`-th AI civilization,
      on both sides, under each other's names. */
  function SetRelation(g: Game, i: nat, rel: Relation): (r: Game)
    requires i < |g.ais|
    ensures |r.ais| == |g.ais| && g.ais[i].name in r.player.diplomacy && g.player.name in r.ais[i].diplomacy
    ensures r.player.diplomacy[g.ais[i].name] == rel && r.ais[i].diplomacy[g.player.name] == rel
    ensures r.player.diplomacy.Keys == g.player.diplomacy.Keys + {g.ais[i].name}
    ensures r.ais[i].diplomacy.Keys == g.ais[i].diplomacy.Keys + {g.player.name}
    ensures forall k :: k in g.player.diplomacy && k != g.ais[i].name ==>
              r.player.diplomacy[k] == g.player.diplomacy[k]
    ensures forall k :: k in g.ais[i].diplomacy && k != g.player.name ==>
              r.ais[i].diplomacy[k] == g.ais[i].diplomacy[k]
    ensures r.(player := g.player, ais := g.ais) == g
    ensures r.player.(diplomacy := g.player.diplomacy) == g.player
    ensures r.ais[i].(diplomacy := g.ais[i].diplomacy) == g.ais[i]
    ensures forall j :: 0 <= j < |g.ais| && j != i ==> r.ais[j] == g.ais[j]
  {
    var a := g.ais[i];
    g.(player := g.player.(diplomacy := g.player.diplomacy[a.name := rel]),
       ais := g.ais[i := a.(diplomacy := a.diplomacy[g.player.name := rel])])
  }

  /** The diplomacy menu as intended: war or peace with the chosen
      civilization, set on both sides; "information" changes nothing. */
  function Diplomacy(g: Game, civIndex: nat, s: Stance): (r: Result<Game>)
    ensures r.Ok? <==> civIndex < |g.ais|
    ensures r.Err? ==> r.error == UnknownEntity
    ensures r.Ok? && s == Information ==> r.value == g
    ensures r.Ok? && s != Information ==>
              var rel := if s == DeclareWar then War else Peace;
              && |r.value.ais| == |g.ais|
              && g.ais[civIndex].name in r.value.player.diplomacy
              && g.player.name in r.value.ais[civIndex].diplomacy
              && r.value.player.diplomacy[g.ais[civIndex].name] == rel
              && r.value.ais[civIndex].diplomacy[g.player.name] == rel
              && r.value == SetRelation(g, civIndex, rel)
    ensures r.Ok? ==> r.value.(player := g.player, ais := g.ais) == g
    ensures r.Ok? ==> r.value.player.(diplomacy := g.player.diplomacy) == g.player
  {
    if civIndex >= |g.ais| then Err(UnknownEntity)
    else
      match s
      case DeclareWar => Ok(SetRelation(g, civIndex, War))
      case ProposePeace => Ok(SetRelation(g, civIndex, Peace))
      case Information => Ok(g)
  }

  /** A diplomatic act concerns only the chosen civilization: relations
      with every other one stay as they were, on both sides. */
  lemma DiplomacyOnlyTouchesChosen(g: Game, civIndex: nat, s: Stance, j: nat)
    requires AiNamesDistinct(g.ais) && Diplomacy(g, civIndex, s).Ok?
    requires j < |g.ais| && j != civIndex && g.ais[j].name in g.player.diplomacy
    ensures var h := Diplomacy(g, civIndex, s).value;
            && g.ais[j].name in h.player.diplomacy
            && h.player.diplomacy[g.ais[j].name] == g.player.diplomacy[g.ais[j].name]
            && h.ais[j] == g.ais[j]
  {
  }

  /** Diplomacy keeps the game well-formed, in particular symmetric. */
  lemma DiplomacyWellFormed(g: Game, civIndex: nat, s: Stance)
    requires WellFormed(g) && Diplomacy(g, civIndex, s).Ok?
    ensures WellFormed(Diplomacy(g, civIndex, s).value)
  {
    if s != Information {
      SetRelationWellFormed(g, civIndex, if s == DeclareWar then War else Peace);
    }
  }

  /** Setting a relation on both sides keeps the game well-formed, in
      particular symmetric. */
  lemma SetRelationWellFormed(g: Game, i: nat, rel: Relation)
    requires WellFormed(g) && i < |g.ais|
    ensures WellFormed(SetRelation(g, i, rel))
  {
    var h := SetRelation(g, i, rel);
    forall j | 0 <= j < |h.ais|
      ensures CivValid(h.ais[j]) && CivOnMap(h.ais[j], h.world.width, h.world.height) && |h.ais[j].cities| >= 1
      ensures h.ais[j].name == g.ais[j].name
    {
      if j == i {
        assert h.ais[j].(diplomacy := g.ais[j].diplomacy) == g.ais[j];
      }
    }
    assert AiNamesDistinct(h.ais);
    forall j | 0 <= j < |h.ais|
      ensures h.ais[j].name in h.player.diplomacy && h.player.name in h.ais[j].diplomacy
      ensures h.player.diplomacy[h.ais[j].name] == h.ais[j].diplomacy[h.player.name]
    {
      if j != i {
        assert g.ais[j].name != g.ais[i].name;
      }
    }
    assert DiplomacySymmetric(h);
  }

  /** The diplomacy menu as written: before offering any choice it lists
      each AI civilization with a strength summed over the unit lists of
      its cities, an attribute cities do not have, so the program stops as
      soon as one AI civilization has a city. With no AI civilizations the
      menu returns at once. */
  function DiplomacyAsWritten(g: Game, civIndex: nat, s: Stance): (r: Result<Game>)
    ensures (exists i :: 0 <= i < |g.ais| && |g.ais[i].cities| > 0) ==> r == Err(MissingAttribute)
    ensures |g.ais| == 0 ==> r == Err(UnknownEntity)
  {
    if |g.ais| == 0 then Err(UnknownEntity)
    else if exists i :: 0 <= i < |g.ais| && |g.ais[i].cities| > 0 then Err(MissingAttribute)
    else Diplomacy(g, civIndex, s)
  }

  /** In every well-formed game with an AI civilization, the diplomacy
      menu as written never gets to war or peace, whereas the intended
      menu does. */
  lemma DiplomacyUnreachable(g: Game, s: Stance)
    requires WellFormed(g) && |g.ais| >= 1
    ensures DiplomacyAsWritten(g, 0, s) == Err(MissingAttribute)
    ensures Diplomacy(g, 0, s).Ok?
  {
    assert |g.ais[0].cities| >= 1;
  }
}

=== FILE: common.dfy ===
/** Shared vocabulary of the model: optional values, results that carry the
    reason a command was refused, and two small sequence utilities. */
module Common {

  datatype Option<T> = None | Some(value: T)

  /** Why a command issued between turns was refused. A refused command
      leaves the game exactly as it was; `MissingAttribute` is the program
      itself stopping on an error. */
  datatype Error =
    | UnknownEntity      // the index names no city, unit or civilization
    | NotASettler        // only a settler may found a city
    | InvalidOrder       // unit type not yet available, or building already present
    | InvalidTechnology  // technology already known, or its prerequisites are unmet
    | ResearchInProgress // the technology menu offers nothing while research is active
    | OutOfBounds        // the step would leave the map
    | NoMovesRemaining   // the unit has spent this turn's moves
    | MissingAttribute   // a menu reads an attribute its object does not have

  datatype Result<T> = Ok(value: T) | Err(error: Error)

  /** No element occurs twice. */
  predicate Distinct<T(==)>(s: seq<T>) {
    forall i, j :: 0 <= i < j < |s| ==> s[i] != s[j]
  }

  /** Drops the first occurrence of `x`, as a list's `remove` does; a
      sequence without `x` is returned as it is. */
  function RemoveFirst<T(==)>(s: seq<T>, x: T): (r: seq<T>)
    ensures x !in s ==> r == s
    ensures x in s ==> |r| == |s| - 1 && multiset(r) + multiset{x} == multiset(s)
    ensures forall y :: y in r ==> y in s
    ensures x in s ==> r == s[..FirstIndex(s, x)] + s[FirstIndex(s, x) + 1..]
  {
    if |s| == 0 then []
    else
      assert s == [s[0]] + s[1..];
      if s[0] == x then s[1..]
      else
        var t := RemoveFirst(s[1..], x);
        if x in s then
          SkipAfterHead(s, FirstIndex(s[1..], x));
          [s[0]] + t
        else
          [s[0]] + t
  }

  /** Dropping the `j`-th element of `s[1..]` and putting `s[0]` back in
      front drops the `j + 1`-th element of `s`. */
  lemma SkipAfterHead<T>(s: seq<T>, j: nat)
    requires j + 1 < |s|
    ensures [s[0]] + (s[1..][..j] + s[1..][j + 1..]) == s[..j + 1] + s[j + 2..]
  {
    assert s[..j + 1] == [s[0]] + s[1..][..j];
    assert s[j + 2..] == s[1..][j + 1..];
  }

  /** Where `x` first occurs in `s`. */
  function FirstIndex<T(==)>(s: seq<T>, x: T): (i: nat)
    requires x in s
    ensures i < |s| && s[i] == x && x !in s[..i]
  {
    if s[0] == x then 0
    else
      var j := FirstIndex(s[1..], x);
      assert s[..j + 1] == [s[0]] + s[1..][..j];
      j + 1
  }

  /** The elements of `xs` that satisfy `keep`, in their original order,
      defined element by element from the back. */
  function Filter<T>(xs: seq<T>, keep: T -> bool): seq<T>
  {
    if |xs| == 0 then []
    else Filter(xs[..|xs| - 1], keep) + (if keep(xs[|xs| - 1]) then [xs[|xs| - 1]] else [])
  }

  /** The elements of `xs` that satisfy `keep`, in their original order:
      the loop every menu of the game uses to list what it offers. */
  method Select<T(==)>(xs: seq<T>, keep: T -> bool) returns (r: seq<T>)
    ensures r == Filter(xs, keep)
    ensures forall x :: x in r <==> x in xs && keep(x)
    ensures Distinct(xs) ==> Distinct(r)
    ensures |r| <= |xs|
  {
    r := [];
    var k := 0;
    while k < |xs|
      invariant 0 <= k <= |xs|
      invariant |r| <= k
      invariant forall x :: x in r <==> x in xs[..k] && keep(x)
      invariant Distinct(xs) ==> Distinct(r)
      invariant r == Filter(xs[..k], keep)
    {
      assert xs[..k + 1] == xs[..k] + [xs[k]];
      assert xs[..k + 1][..k] == xs[..k];
      if keep(xs[k]) {
        if Distinct(xs) {
          assert xs[k] !in xs[..k];
        }
        r := r + [xs[k]];
      }
      k := k + 1;
    }
    assert xs[..k] == xs;
  }
}

=== FILE: gamestate.dfy ===
/** The game as a whole: the map with its registries of placed cities and
    units, the player's civilization and the AI civilizations, the turn
    counter and the game-over flag; what every reachable game satisfies; the
    victory check; and the initial setup with its random draws as
    parameters. */
module GameState {

  import opened Common
  import opened Tables
  import opened Units
  import opened Cities
  import opened Civs

  const MapWidth: int := 20
  const MapHeight: int := 15
  const VictoryCities: int := 5

  /** The map. Its tiles are drawn for display only and are not modelled;
      `cityIds` and `unitIds` are the map's own lists of what was placed on
      it, by id. */
  datatype World = World(width: int, height: int, cityIds: seq<nat>, unitIds: seq<nat>)

  /** `nextId` is the first id not yet handed to a city or unit. */
  datatype Game = Game(world: World, player: Civ, ais: seq<Civ>, turn: int, gameOver: bool, nextId: nat)

  predicate CivOnMap(civ: Civ, width: int, height: int) {
    && (forall i :: 0 <= i < |civ.cities| ==> CityOnMap(civ.cities[i], width, height))
    && (forall i :: 0 <= i < |civ.units| ==> OnMap(civ.units[i], width, height))
  }

  /** The player and each AI civilization hold the same relation to each
      other, under each other's names. */
  predicate DiplomacySymmetric(g: Game) {
    forall i :: 0 <= i < |g.ais| ==>
      && g.ais[i].name in g.player.diplomacy
      && g.player.name in g.ais[i].diplomacy
      && g.player.diplomacy[g.ais[i].name] == g.ais[i].diplomacy[g.player.name]
  }

  /** No two AI civilizations share a name (relations are kept by name). */
  predicate AiNamesDistinct(ais: seq<Civ>) {
    forall i, j :: 0 <= i < j < |ais| ==> ais[i].name != ais[j].name
  }

  /** Every id on the map's registries was handed out before `nextId`. */
  predicate RegistryBelow(w: World, nextId: nat) {
    (forall k :: k in w.cityIds ==> k < nextId) && (forall k :: k in w.unitIds ==> k < nextId)
  }

  /** What every reachable game satisfies. */
  predicate WellFormed(g: Game) {
    && g.world.width >= 1 && g.world.height >= 1
    && CivValid(g.player)
    && CivOnMap(g.player, g.world.width, g.world.height)
    && (forall i :: 0 <= i < |g.ais| ==> CivValid(g.ais[i]))
    && (forall i :: 0 <= i < |g.ais| ==> CivOnMap(g.ais[i], g.world.width, g.world.height))
    && (forall i :: 0 <= i < |g.ais| ==> |g.ais[i].cities| >= 1)
    && AiNamesDistinct(g.ais)
    && DiplomacySymmetric(g)
    && RegistryBelow(g.world, g.nextId)
  }

  /** `check_victory`: the game ends once the player has five cities, or
      none; a game that has ended stays ended. */
  function CheckVictory(g: Game): (r: Game)
    ensures r.gameOver <==> g.gameOver || |g.player.cities| >= VictoryCities || |g.player.cities| == 0
    ensures r.(gameOver := g.gameOver) == g
  {
    if |g.player.cities| >= VictoryCities then g.(gameOver := true)
    else if |g.player.cities| == 0 then g.(gameOver := true)
    else g
  }

  /** With one to four cities the check changes nothing; checking twice is
      checking once. */
  lemma CheckVictoryOutcomes(g: Game)
    ensures 1 <= |g.player.cities| < VictoryCities ==> CheckVictory(g) == g
    ensures CheckVictory(CheckVictory(g)) == CheckVictory(g)
  {
  }

  /** An answer to a name prompt: an empty answer takes the default. */
  function OrDefault(input: string, default: string): (r: string)
    ensures input == "" ==> r == default
    ensures input != "" ==> r == input
  {
    if input == "" then default else input
  }

  const AiNames: seq<string> := ["Египет", "Греция", "Персия", "Карфаген"]
  const AiLeaders: seq<string> := ["Рамзес", "Александр", "Кир", "Ганнибал"]

  /** Where and on what terrain an AI civilization starts: the random draws
      of the setup. */
  datatype AiStart = AiStart(x: int, y: int, terrain: Terrain)

  /** The `i`-th AI civilization as set up: its capital and one warrior on
      the drawn square, at peace with the player. */
  function AiCiv(i: nat, start: AiStart, playerName: string, cityId: nat): Civ
    requires i < 2
  {
    var civ := NewCiv(i + 1, AiNames[i], AiLeaders[i]);
    civ.(cities := [NewCity(cityId, "Столица " + AiNames[i], start.x, start.y, i + 1, start.terrain)],
         units := [NewUnit(cityId + 1, Warrior, start.x, start.y, i + 1)],
         diplomacy := map[playerName := Peace])
  }

  lemma AiCivWellFormed(i: nat, start: AiStart, playerName: string, cityId: nat)
    requires i < 2 && 0 <= start.x < MapWidth && 0 <= start.y < MapHeight
    ensures var civ := AiCiv(i, start, playerName, cityId);
            && CivValid(civ) && CivOnMap(civ, MapWidth, MapHeight) && |civ.cities| == 1
            && civ.name == AiNames[i] && playerName in civ.diplomacy && civ.diplomacy[playerName] == Peace
  {
  }

  /** The player's civilization as set up: its capital and a settler in
      the middle of the map, agriculture known, at peace with both AI
      civilizations. */
  function PlayerCiv(name: string, leader: string, capitalTerrain: Terrain): Civ {
    var x := MapWidth / 2;
    var y := MapHeight / 2;
    NewCiv(0, name, leader).(
      cities := [NewCity(0, "Столица " + name, x, y, 0, capitalTerrain)],
      units := [NewUnit(1, Settler, x, y, 0)],
      unlocked := {Agriculture},
      discovered := [Agriculture],
      diplomacy := map[AiNames[0] := Peace, AiNames[1] := Peace])
  }

  lemma PlayerCivWellFormed(name: string, leader: string, capitalTerrain: Terrain)
    ensures var civ := PlayerCiv(name, leader, capitalTerrain);
            && CivValid(civ) && CivOnMap(civ, MapWidth, MapHeight)
            && AiNames[0] in civ.diplomacy && AiNames[1] in civ.diplomacy
            && civ.diplomacy[AiNames[0]] == Peace && civ.diplomacy[AiNames[1]] == Peace
            && civ.unlocked == {Agriculture} && civ.discovered == [Agriculture]
  {
    var civ := PlayerCiv(name, leader, capitalTerrain);
    assert KnowledgeValid(civ);
  }

  /** `setup_game` on a 20 by 15 map: the player's capital and a settler
      in the middle of the map, agriculture known, and two AI
      civilizations at peace with the player. Cities and units are numbered
      in the order the setup creates them. */
  function InitialGame(civInput: string, leaderInput: string, capitalTerrain: Terrain, a0: AiStart, a1: AiStart): (g: Game)
    ensures g.turn == 0 && !g.gameOver
    ensures g.player.name == OrDefault(civInput, "Рим") && g.player.leader == OrDefault(leaderInput, "Цезарь")
    ensures g.player.cities == [NewCity(0, "Столица " + g.player.name, 10, 7, g.player.id, capitalTerrain)]
    ensures g.player.units == [NewUnit(1, Settler, 10, 7, g.player.id)]
    ensures g.player.unlocked == {Agriculture} && g.player.discovered == [Agriculture]
    ensures g.player.activeResearch.None? && g.player.gold == StartingGold
    ensures |g.ais| == 2 && g.ais[0].name == "Египет" && g.ais[1].name == "Греция"
    ensures g.world.cityIds == [0, 2, 4] && g.world.unitIds == [1, 3, 5]
    ensures g.world.width == MapWidth && g.world.height == MapHeight && g.nextId == 6
    ensures g.player.id == 0 && g.player.diplomacy == map["Египет" := Peace, "Греция" := Peace]
    ensures && g.ais[0].id == 1 && g.ais[0].leader == "Рамзес"
            && g.ais[0].cities == [NewCity(2, "Столица Египет", a0.x, a0.y, 1, a0.terrain)]
            && g.ais[0].units == [NewUnit(3, Warrior, a0.x, a0.y, 1)]
            && g.ais[0].diplomacy == map[g.player.name := Peace]
    ensures && g.ais[1].id == 2 && g.ais[1].leader == "Александр"
            && g.ais[1].cities == [NewCity(4, "Столица Греция", a1.x, a1.y, 2, a1.terrain)]
            && g.ais[1].units == [NewUnit(5, Warrior, a1.x, a1.y, 2)]
            && g.ais[1].diplomacy == map[g.player.name := Peace]
  {
    var name := OrDefault(civInput, "Рим");
    var player := PlayerCiv(name, OrDefault(leaderInput, "Цезарь"), capitalTerrain);
    var ais := [AiCiv(0, a0, name, 2), AiCiv(1, a1, name, 4)];
    assert "Столица " + AiNames[0] == "Столица Египет";
    assert "Столица " + AiNames[1] == "Столица Греция";
    Game(World(MapWidth, MapHeight, [0, 2, 4], [1, 3, 5]), player, ais, 0, false, 6)
  }

  /** The setup yields a well-formed game, every AI civilization at peace
      with the player on both sides, whenever the drawn AI squares lie on
      the map (as the random draw guarantees). */
  lemma InitialGameWellFormed(civInput: string, leaderInput: string, capitalTerrain: Terrain, a0: AiStart, a1: AiStart)
    requires 0 <= a0.x < MapWidth && 0 <= a0.y < MapHeight
    requires 0 <= a1.x < MapWidth && 0 <= a1.y < MapHeight
    ensures var g := InitialGame(civInput, leaderInput, capitalTerrain, a0, a1);
            && WellFormed(g)
            && forall i :: 0 <= i < |g.ais| ==>
                 g.player.diplomacy[g.ais[i].name] == Peace && g.ais[i].diplomacy[g.player.name] == Peace
  {
    var g := InitialGame(civInput, leaderInput, capitalTerrain, a0, a1);
    var name := OrDefault(civInput, "Рим");
    PlayerCivWellFormed(name, OrDefault(leaderInput, "Цезарь"), capitalTerrain);
    AiCivWellFormed(0, a0, name, 2);
    AiCivWellFormed(1, a1, name, 4);
    assert AiNames[0] != AiNames[1];
    assert AiNamesDistinct(g.ais);
    assert DiplomacySymmetric(g);
    assert RegistryBelow(g.world, g.nextId);
  }
}

=== FILE: tables.dfy ===
/** The closed enumerations of the game and its constant tables: unit and
    building costs, unit combat strength, technology costs, and the
    technology prerequisite graph with its acyclicity. */
module Tables {

  import opened Common

  datatype Terrain = Plains | Forest | Mountains | Hills | Coast | Ocean

  datatype UnitType = Settler | Warrior | Archer | Scout | Spearman | Horseman | Catapult

  datatype Building = Granary | Barracks | Library | Market | Walls | Temple

  datatype Tech =
    | Agriculture | Pottery | Writing | Archery | Mining
    | BronzeWorking | TheWheel | Masonry | HorsebackRiding | Mathematics

  /** Every member of each enumeration once, in declaration order: the order
      in which the menus walk them. */
  const AllUnitTypes: seq<UnitType> := [Settler, Warrior, Archer, Scout, Spearman, Horseman, Catapult]
  const AllBuildings: seq<Building> := [Granary, Barracks, Library, Market, Walls, Temple]
  const AllTechs: seq<Tech> :=
    [Agriculture, Pottery, Writing, Archery, Mining, BronzeWorking, TheWheel, Masonry, HorsebackRiding, Mathematics]

  function UnitCost(u: UnitType): nat {
    match u
    case Settler => 100
    case Warrior => 40
    case Archer => 60
    case Scout => 25
    case Spearman => 50
    case Horseman => 80
    case Catapult => 120
  }

  function UnitStrength(u: UnitType): nat {
    match u
    case Settler => 0
    case Warrior => 10
    case Archer => 12
    case Scout => 5
    case Spearman => 15
    case Horseman => 18
    case Catapult => 20
  }

  /** Shown by the city menu only: buildings are completed the moment they
      are chosen, so no cost is ever paid. */
  function BuildingCost(b: Building): nat {
    match b
    case Granary => 60
    case Barracks => 80
    case Library => 90
    case Market => 100
    case Walls => 120
    case Temple => 80
  }

  function TechCost(t: Tech): nat {
    match t
    case Agriculture => 20
    case Pottery => 25
    case Writing => 40
    case Archery => 35
    case Mining => 30
    case BronzeWorking => 50
    case TheWheel => 45
    case Masonry => 55
    case HorsebackRiding => 60
    case Mathematics => 70
  }

  /** The prerequisite table. Agriculture has no entry at all, Mining an
      empty one; both mean "no prerequisites". */
  const TechRequirements: map<Tech, seq<Tech>> := map[
    Pottery := [Agriculture],
    Writing := [Pottery],
    Archery := [Agriculture],
    Mining := [],
    BronzeWorking := [Mining],
    TheWheel := [Agriculture],
    Masonry := [Mining],
    HorsebackRiding := [TheWheel],
    Mathematics := [Writing]
  ]

  /** The prerequisites of `t`, a missing key read as none. */
  function Requirements(t: Tech): seq<Tech> {
    if t in TechRequirements then TechRequirements[t] else []
  }

  lemma EnumerationsComplete()
    ensures forall u: UnitType :: u in AllUnitTypes
    ensures forall b: Building :: b in AllBuildings
    ensures forall t: Tech :: t in AllTechs
    ensures Distinct(AllUnitTypes) && Distinct(AllBuildings) && Distinct(AllTechs)
  {
    forall u: UnitType ensures u in AllUnitTypes {
      match u {
        case Settler => assert AllUnitTypes[0] == u;
        case Warrior => assert AllUnitTypes[1] == u;
        case Archer => assert AllUnitTypes[2] == u;
        case Scout => assert AllUnitTypes[3] == u;
        case Spearman => assert AllUnitTypes[4] == u;
        case Horseman => assert AllUnitTypes[5] == u;
        case Catapult => assert AllUnitTypes[6] == u;
      }
    }
    forall b: Building ensures b in AllBuildings {
      match b {
        case Granary => assert AllBuildings[0] == b;
        case Barracks => assert AllBuildings[1] == b;
        case Library => assert AllBuildings[2] == b;
        case Market => assert AllBuildings[3] == b;
        case Walls => assert AllBuildings[4] == b;
        case Temple => assert AllBuildings[5] == b;
      }
    }
    forall t: Tech ensures t in AllTechs {
      match t {
        case Agriculture => assert AllTechs[0] == t;
        case Pottery => assert AllTechs[1] == t;
        case Writing => assert AllTechs[2] == t;
        case Archery => assert AllTechs[3] == t;
        case Mining => assert AllTechs[4] == t;
        case BronzeWorking => assert AllTechs[5] == t;
        case TheWheel => assert AllTechs[6] == t;
        case Masonry => assert AllTechs[7] == t;
        case HorsebackRiding => assert AllTechs[8] == t;
        case Mathematics => assert AllTechs[9] == t;
      }
    }
  }

  /** Every production order costs something, so a fresh order (progress 0)
      is never already complete. */
  lemma CostsPositive(u: UnitType, t: Tech)
    ensures UnitCost(u) >= 25 && TechCost(t) >= 20
  {
  }

  /** Height of a technology in the prerequisite graph. */
  function Rank(t: Tech): nat {
    match t
    case Agriculture => 0
    case Mining => 0
    case Pottery => 1
    case Archery => 1
    case TheWheel => 1
    case BronzeWorking => 1
    case Masonry => 1
    case Writing => 2
    case HorsebackRiding => 2
    case Mathematics => 3
  }

  lemma RequirementLowersRank(t: Tech, q: Tech)
    requires q in Requirements(t)
    ensures Rank(q) < Rank(t)
  {
  }

  /** `path[i - 1]` is a prerequisite of `path[i]` all along the path. */
  predicate IsRequirementChain(path: seq<Tech>) {
    forall i :: 0 < i < |path| ==> path[i - 1] in Requirements(path[i])
  }

  lemma {:induction false} ChainRaisesRank(path: seq<Tech>)
    requires |path| >= 1 && IsRequirementChain(path)
    ensures Rank(path[0]) + |path| - 1 <= Rank(path[|path| - 1])
  {
    if |path| > 1 {
      var tail := path[1..];
      assert IsRequirementChain(tail) by {
        forall i | 0 < i < |tail|
          ensures tail[i - 1] in Requirements(tail[i])
        {
          assert tail[i - 1] == path[i] && tail[i] == path[i + 1];
        }
      }
      ChainRaisesRank(tail);
      RequirementLowersRank(path[1], path[0]);
    }
  }

  /** The prerequisite graph is acyclic: following prerequisites never
      leads back to where it started. */
  lemma RequirementsAcyclic(path: seq<Tech>)
    requires |path| >= 2 && IsRequirementChain(path)
    ensures path[0] != path[|path| - 1]
  {
    ChainRaisesRank(path);
  }

  /** No chain of prerequisites has more than four technologies in it. */
  lemma ChainsAreShort(path: seq<Tech>)
    requires IsRequirementChain(path)
    ensures |path| <= 4
  {
    if |path| > 0 {
      ChainRaisesRank(path);
    }
  }
}

=== FILE: turns.dfy ===
/** The turn engine: the player's cities take their turn in order, the
    civilization's yields are recomputed and the treasury updated, research
    is checked against its threshold, the player's units get their moves
    back, the AI civilizations take their step, and the victory check
    closes the turn. The AI's random steps are a parameter. */
module Turns {

  import opened Common
  import opened Tables
  import opened Units
  import opened Cities
  import opened Civs
  import opened GameState

  /** The unit a city that finishes its order produces, numbered `id`. */
  function Produced(c: City, id: nat): Unit
    requires c.queue.InProgress?
  {
    NewUnit(id, c.queue.order, c.x, c.y, c.owner)
  }

  /** The cities of `cs` that finish their order this turn, in order. */
  function Completing(cs: seq<City>): (r: seq<City>)
    ensures |r| <= |cs|
    ensures forall k :: 0 <= k < |r| ==> Completes(r[k])
    ensures forall c :: c in r ==> c in cs
  {
    if |cs| == 0 then []
    else (if Completes(cs[0]) then [cs[0]] else []) + Completing(cs[1..])
  }

  /** Selecting the finishing cities of two lists one after the other is
      selecting them from the joined list: the selection keeps the order
      of `cs`, and a city that finishes is kept once per occurrence. */
  lemma {:induction false} CompletingAppend(a: seq<City>, b: seq<City>)
    ensures Completing(a + b) == Completing(a) + Completing(b)
    decreases |a|
  {
    if |a| == 0 {
      assert a + b == b;
    } else {
      assert (a + b)[1..] == a[1..] + b;
      CompletingAppend(a[1..], b);
    }
  }

  /** Every city of `cs` that finishes its order is selected. */
  lemma {:induction false} CompletingComplete(cs: seq<City>)
    ensures forall c :: c in cs && Completes(c) ==> c in Completing(cs)
    decreases |cs|
  {
    if |cs| > 0 {
      CompletingComplete(cs[1..]);
      assert cs == [cs[0]] + cs[1..];
    }
  }

  /** A single city is selected exactly when it finishes its order. */
  lemma CompletingSingle(c: City)
    ensures Completing([c]) == if Completes(c) then [c] else []
  {
    assert [c][1..] == [];
  }

  /** The cities after their turn and the units they produced, in the
      order they were produced. */
  datatype CitiesTurn = CitiesTurn(cities: seq<City>, spawned: seq<Unit>)

  /** What a city becomes in its turn does not depend on the number the
      produced unit is given. */
  lemma CityTurnIgnoresId(c: City, id: nat)
    ensures CityProcessTurn(c, id).city == CityProcessTurn(c, 0).city
  {
  }

  /** `process_turn` of each of the player's cities in turn. The units are
      numbered from `nextId` in the order they are produced: the `k`-th
      unit comes from the `k`-th city that finishes its order. */
  function TurnCities(cs: seq<City>, nextId: nat): (r: CitiesTurn)
    ensures |r.cities| == |cs|
    ensures forall i :: 0 <= i < |cs| ==> r.cities[i] == CityProcessTurn(cs[i], 0).city
    ensures |r.spawned| == |Completing(cs)|
    ensures forall k :: 0 <= k < |r.spawned| ==> r.spawned[k] == Produced(Completing(cs)[k], nextId + k)
    decreases |cs|
  {
    if |cs| == 0 then CitiesTurn([], [])
    else
      var t := CityProcessTurn(cs[0], nextId);
      CityTurnIgnoresId(cs[0], nextId);
      var first := if t.spawned.Some? then [t.spawned.value] else [];
      var rest := TurnCities(cs[1..], nextId + |first|);
      var r := CitiesTurn([t.city] + rest.cities, first + rest.spawned);
      assert forall i :: 1 <= i < |cs| ==> r.cities[i] == rest.cities[i - 1] && cs[1..][i - 1] == cs[i];
      assert Completing(cs) == (if Completes(cs[0]) then [cs[0]] else []) + Completing(cs[1..]);
      r
  }

  /** Every unit gets its full moves back. */
  function ResetAll(us: seq<Unit>): (r: seq<Unit>)
    ensures |r| == |us|
    ensures forall k :: 0 <= k < |us| ==> r[k] == ResetMoves(us[k])
  {
    seq(|us|, k requires 0 <= k < |us| => ResetMoves(us[k]))
  }

  /** The player's civilization after steps 2 to 6 of the turn, and the
      next free id. */
  datatype PlayerTurn = PlayerTurn(civ: Civ, nextId: nat)

  /** Steps 2 to 6 of `process_turn` for the player: each city's turn (the
      units it produces join the civilization's units), the yields, the
      treasury, the research check, and the reset of every unit's moves. */
  function PlayerPhase(p: Civ, nextId: nat): (r: PlayerTurn)
    ensures var ct := TurnCities(p.cities, nextId);
            && r.civ.cities == ct.cities
            && r.civ.units == ResetAll(p.units + ct.spawned)
            && r.nextId == nextId + |ct.spawned|
  {
    var ct := TurnCities(p.cities, nextId);
    var p1 := CalculateYields(p.(cities := ct.cities, units := p.units + ct.spawned));
    var p2 := p1.(gold := p1.gold + p1.goldPerTurn);
    var p3 := ResearchStep(p2);
    PlayerTurn(p3.(units := ResetAll(p3.units)), nextId + |ct.spawned|)
  }

  /** The AI's random steps: the step of the `k`-th unit of the `i`-th AI
      civilization, one offset in {-1, 0, 1} per axis. */
  type Roll = (nat, nat) -> (Delta, Delta)

  /** Tile work of every city, and nothing else. */
  function WorkAll(cs: seq<City>): (r: seq<City>)
    ensures |r| == |cs|
    ensures forall i :: 0 <= i < |cs| ==> r[i] == WorkTile(cs[i])
  {
    seq(|cs|, i requires 0 <= i < |cs| => WorkTile(cs[i]))
  }

  /** The step of the `ci`-th AI civilization: its cities only work their
      tile, and each unit takes its random, clamped step. Yields, treasury
      and research are left alone, and moves are not restored. */
  function AiCivTurn(civ: Civ, ci: nat, roll: Roll, width: int, height: int): (r: Civ)
    ensures |r.cities| == |civ.cities| && |r.units| == |civ.units|
    ensures forall i :: 0 <= i < |civ.cities| ==> r.cities[i] == WorkTile(civ.cities[i])
    ensures forall k :: 0 <= k < |civ.units| ==>
              r.units[k] == AiMove(civ.units[k], roll(ci, k).0, roll(ci, k).1, width, height)
    ensures r.(cities := civ.cities, units := civ.units) == civ
  {
    var units := seq(|civ.units|, k requires 0 <= k < |civ.units| =>
                       AiMove(civ.units[k], roll(ci, k).0, roll(ci, k).1, width, height));
    civ.(cities := WorkAll(civ.cities), units := units)
  }

  /** `ai_turn`: every AI civilization takes its step, in order. */
  function AiTurn(ais: seq<Civ>, roll: Roll, width: int, height: int): (r: seq<Civ>)
    ensures |r| == |ais|
    ensures forall i :: 0 <= i < |ais| ==> r[i] == AiCivTurn(ais[i], i, roll, width, height)
  {
    seq(|ais|, i requires 0 <= i < |ais| => AiCivTurn(ais[i], i, roll, width, height))
  }

  /** `Game.process_turn`: the turn counter, the player's phase, the AI
      step and the victory check, in this order. Neither the map's
      registries nor anything else outside the civilizations changes, the
      treasury moves by exactly this turn's gold per turn, and every player
      unit ends the turn with full moves. */
  function ProcessTurn(g: Game, roll: Roll): (r: Game)
    ensures r.turn == g.turn + 1 && r.world == g.world
    ensures r.player.gold == g.player.gold + r.player.goldPerTurn
    ensures forall k :: 0 <= k < |r.player.units| ==> r.player.units[k].moves == MovesPerTurn
    ensures |r.player.cities| == |g.player.cities|
    ensures r.gameOver <==> g.gameOver || |g.player.cities| >= VictoryCities || |g.player.cities| == 0
    ensures r.ais == AiTurn(g.ais, roll, g.world.width, g.world.height)
  {
    var pt := PlayerPhase(g.player, g.nextId);
    var ais := AiTurn(g.ais, roll, g.world.width, g.world.height);
    CheckVictory(g.(turn := g.turn + 1, player := pt.civ, ais := ais, nextId := pt.nextId))
  }

  /** Science and gold per turn are recomputed from the cities after their
      turn and the units including the ones just produced; each city has
      taken exactly its own turn. */
  lemma TurnYields(g: Game, roll: Roll)
    ensures var r := ProcessTurn(g, roll);
            && (forall i :: 0 <= i < |g.player.cities| ==>
                  r.player.cities[i] == CityProcessTurn(g.player.cities[i], 0).city)
            && r.player.sciencePerTurn == Total(r.player.cities).science
            && r.player.goldPerTurn == Total(r.player.cities).gold - |r.player.units|
  {
  }

  /** The player keeps every unit, with its moves restored, and gains one
      unit per city finishing its order, numbered from the game's next
      free id in the order the cities come. */
  lemma TurnUnits(g: Game, roll: Roll)
    ensures var r := ProcessTurn(g, roll);
            var done := Completing(g.player.cities);
            && |r.player.units| == |g.player.units| + |done|
            && (forall k :: 0 <= k < |g.player.units| ==> r.player.units[k] == ResetMoves(g.player.units[k]))
            && (forall k :: 0 <= k < |done| ==>
                  r.player.units[|g.player.units| + k] == Produced(done[k], g.nextId + k))
            && r.nextId == g.nextId + |done|
  {
    var pt := PlayerPhase(g.player, g.nextId);
    PlayerPhaseUnits(g.player, g.nextId);
    assert ProcessTurn(g, roll).player == pt.civ && ProcessTurn(g, roll).nextId == pt.nextId;
  }

  /** The units of the player's phase: the old ones with moves restored,
      then one per city finishing its order, numbered from `nextId`. */
  lemma PlayerPhaseUnits(p: Civ, nextId: nat)
    ensures var pt := PlayerPhase(p, nextId);
            var done := Completing(p.cities);
            && |pt.civ.units| == |p.units| + |done|
            && (forall k :: 0 <= k < |p.units| ==> pt.civ.units[k] == ResetMoves(p.units[k]))
            && (forall k :: 0 <= k < |done| ==> pt.civ.units[|p.units| + k] == Produced(done[k], nextId + k))
            && pt.nextId == nextId + |done|
  {
    var ct := TurnCities(p.cities, nextId);
    var all := p.units + ct.spawned;
    var us := PlayerPhase(p, nextId).civ.units;
    assert us == ResetAll(all);
    forall k | 0 <= k < |ct.spawned|
      ensures us[|p.units| + k] == Produced(Completing(p.cities)[k], nextId + k)
    {
      assert all[|p.units| + k] == ct.spawned[k];
    }
  }

  /** A produced unit joins the civilization's units but is never placed
      on the map's unit registry. */
  lemma ProducedUnitsNotOnMap(g: Game, roll: Roll)
    requires RegistryBelow(g.world, g.nextId)
    ensures var r := ProcessTurn(g, roll);
            forall k :: |g.player.units| <= k < |r.player.units| ==> r.player.units[k].id !in r.world.unitIds
  {
    TurnUnits(g, roll);
    var r := ProcessTurn(g, roll);
    var done := Completing(g.player.cities);
    forall k | |g.player.units| <= k < |r.player.units|
      ensures r.player.units[k].id !in r.world.unitIds
    {
      var j := k - |g.player.units|;
      assert r.player.units[|g.player.units| + j] == Produced(done[j], g.nextId + j);
    }
  }

  /** Research completes exactly when the science per turn just computed
      reaches the cost of the technology under research; the threshold is
      applied afresh each turn. */
  lemma TurnResearch(g: Game, roll: Roll)
    ensures var r := ProcessTurn(g, roll);
            var a := g.player.activeResearch;
            var done := a.Some? && r.player.sciencePerTurn >= TechCost(a.value);
            && r.player.unlocked == (if done then g.player.unlocked + {a.value} else g.player.unlocked)
            && r.player.discovered == (if done then g.player.discovered + [a.value] else g.player.discovered)
            && r.player.activeResearch == (if done then None else a)
  {
  }

  lemma {:induction false} TotalScienceZero(cs: seq<City>)
    requires forall i :: 0 <= i < |cs| ==> cs[i].stock.science == 0
    ensures Total(cs).science == 0
    decreases |cs|
  {
    if |cs| > 0 {
      assert forall i :: 0 <= i < |cs| - 1 ==> cs[1..][i] == cs[i + 1];
      TotalScienceZero(cs[1..]);
    }
  }

  /** Science comes only from libraries: while no city of the player has
      one and no science has been gathered, research never completes. */
  lemma NoLibraryNoResearch(g: Game, roll: Roll)
    requires forall i :: 0 <= i < |g.player.cities| ==>
               Library !in g.player.cities[i].buildings && g.player.cities[i].stock.science == 0
    ensures var r := ProcessTurn(g, roll);
            && r.player.unlocked == g.player.unlocked
            && r.player.activeResearch == g.player.activeResearch
            && forall i :: 0 <= i < |r.player.cities| ==>
                 Library !in r.player.cities[i].buildings && r.player.cities[i].stock.science == 0
  {
    var r := ProcessTurn(g, roll);
    TurnYields(g, roll);
    forall i | 0 <= i < |r.player.cities|
      ensures Library !in r.player.cities[i].buildings && r.player.cities[i].stock.science == 0
    {
      WorkTileGain(g.player.cities[i]);
    }
    TotalScienceZero(r.player.cities);
    CostsPositive(Settler, if g.player.activeResearch.Some? then g.player.activeResearch.value else Agriculture);
  }

  /** AI cities never produce: they only work their tile, their orders
      stay as they are, and the AI civilizations' treasury, yields and
      knowledge never change. */
  lemma AiCitiesOnlyWork(g: Game, roll: Roll, i: nat)
    requires i < |g.ais|
    ensures var a := ProcessTurn(g, roll).ais[i];
            var b := g.ais[i];
            && a.cities == WorkAll(b.cities)
            && (forall j :: 0 <= j < |b.cities| ==> a.cities[j].queue == b.cities[j].queue)
            && |a.units| == |b.units|
            && a.gold == b.gold && a.goldPerTurn == b.goldPerTurn && a.sciencePerTurn == b.sciencePerTurn
            && a.unlocked == b.unlocked && a.activeResearch == b.activeResearch
  {
  }

  /** An AI civilization whose units have no moves left keeps every unit
      where it is. */
  lemma AiCivStalls(civ: Civ, ci: nat, roll: Roll, width: int, height: int)
    requires forall k :: 0 <= k < |civ.units| ==> civ.units[k].moves <= 0
    ensures AiCivTurn(civ, ci, roll, width, height).units == civ.units
  {
  }

  /** AI units never get their moves back: two turns use up the two moves
      a unit starts with, and from then on the AI's steps leave every
      AI unit where it is. */
  lemma AiUnitsStopAfterTwoTurns(g: Game, r1: Roll, r2: Roll, r3: Roll)
    requires forall i :: 0 <= i < |g.ais| ==> forall k :: 0 <= k < |g.ais[i].units| ==> MovesInRange(g.ais[i].units[k])
    ensures var g2 := ProcessTurn(ProcessTurn(g, r1), r2);
            && (forall i :: 0 <= i < |g2.ais| ==> forall k :: 0 <= k < |g2.ais[i].units| ==> g2.ais[i].units[k].moves == 0)
            && forall i :: 0 <= i < |g2.ais| ==> ProcessTurn(g2, r3).ais[i].units == g2.ais[i].units
  {
    var w, h := g.world.width, g.world.height;
    var g1 := ProcessTurn(g, r1);
    var g2 := ProcessTurn(g1, r2);
    forall i, k | 0 <= i < |g2.ais| && 0 <= k < |g2.ais[i].units|
      ensures g2.ais[i].units[k].moves == 0
    {
      var u := g.ais[i].units[k];
      assert g1.ais[i].units[k] == AiMove(u, r1(i, k).0, r1(i, k).1, w, h);
      assert g2.ais[i].units[k] == AiMove(g1.ais[i].units[k], r2(i, k).0, r2(i, k).1, w, h);
    }
    forall i | 0 <= i < |g2.ais| ensures ProcessTurn(g2, r3).ais[i].units == g2.ais[i].units {
      AiCivStalls(g2.ais[i], i, r3, w, h);
    }
  }

  /** Units that belong to `owner`, stand on the map and have moves in range. */
  predicate UnitsFit(us: seq<Unit>, owner: nat, width: int, height: int) {
    forall k :: 0 <= k < |us| ==> us[k].owner == owner && OnMap(us[k], width, height) && MovesInRange(us[k])
  }

  lemma UnitsFitAppend(a: seq<Unit>, b: seq<Unit>, owner: nat, width: int, height: int)
    requires UnitsFit(a, owner, width, height) && UnitsFit(b, owner, width, height)
    ensures UnitsFit(a + b, owner, width, height)
  {
    forall k | 0 <= k < |a + b|
      ensures (a + b)[k].owner == owner && OnMap((a + b)[k], width, height) && MovesInRange((a + b)[k])
    {
      if k >= |a| {
        assert (a + b)[k] == b[k - |a|];
      } else {
        assert (a + b)[k] == a[k];
      }
    }
  }

  /** The units produced by cities of one civilization on the map belong to
      that civilization, stand on the map and have full moves. */
  lemma SpawnedValid(cs: seq<City>, nextId: nat, owner: nat, width: int, height: int)
    requires forall i :: 0 <= i < |cs| ==> cs[i].owner == owner && CityOnMap(cs[i], width, height)
    ensures UnitsFit(TurnCities(cs, nextId).spawned, owner, width, height)
  {
    var sp := TurnCities(cs, nextId).spawned;
    var done := Completing(cs);
    forall k | 0 <= k < |sp|
      ensures sp[k].owner == owner && OnMap(sp[k], width, height) && MovesInRange(sp[k])
    {
      assert done[k] in cs;
    }
  }

  /** Cities that are valid, belong to `owner` and stand on the map. */
  predicate CitiesFit(cs: seq<City>, owner: nat, width: int, height: int) {
    forall i :: 0 <= i < |cs| ==> CityValid(cs[i]) && cs[i].owner == owner && CityOnMap(cs[i], width, height)
  }

  /** The cities of the player's phase stay valid and on the map. */
  lemma TurnCitiesValid(cs: seq<City>, nextId: nat, owner: nat, width: int, height: int)
    requires CitiesFit(cs, owner, width, height)
    ensures CitiesFit(TurnCities(cs, nextId).cities, owner, width, height)
  {
  }

  lemma CivFits(c: Civ, width: int, height: int)
    requires KnowledgeValid(c) && CitiesFit(c.cities, c.id, width, height) && UnitsFit(c.units, c.id, width, height)
    ensures CivValid(c) && CivOnMap(c, width, height)
  {
  }

  /** Outside cities and units, the player's phase changes only yields,
      treasury and research, and keeps the knowledge consistent. */
  lemma PlayerPhaseFrame(p: Civ, nextId: nat)
    requires KnowledgeValid(p)
    ensures var c := PlayerPhase(p, nextId).civ;
            && KnowledgeValid(c) && c.id == p.id && c.name == p.name && c.diplomacy == p.diplomacy
  {
  }

  /** The player's phase keeps the civilization valid and on the map, and
      touches neither its identity nor its relations. */
  lemma PlayerPhaseValid(p: Civ, nextId: nat, width: int, height: int)
    requires CivValid(p) && CivOnMap(p, width, height)
    ensures var pt := PlayerPhase(p, nextId);
            && CivValid(pt.civ) && CivOnMap(pt.civ, width, height)
            && pt.civ.id == p.id && pt.civ.name == p.name && pt.civ.diplomacy == p.diplomacy
            && pt.nextId >= nextId
  {
    var ct := TurnCities(p.cities, nextId);
    assert CitiesFit(p.cities, p.id, width, height);
    SpawnedValid(p.cities, nextId, p.id, width, height);
    TurnCitiesValid(p.cities, nextId, p.id, width, height);
    assert UnitsFit(p.units, p.id, width, height);
    UnitsFitAppend(p.units, ct.spawned, p.id, width, height);
    PlayerPhaseFrame(p, nextId);
    var c := PlayerPhase(p, nextId).civ;
    assert UnitsFit(c.units, p.id, width, height);
    CivFits(c, width, height);
  }

  /** The AI step keeps each AI civilization valid and on the map, with
      the same cities, name and relations. */
  lemma AiCivTurnValid(civ: Civ, ci: nat, roll: Roll, width: int, height: int)
    requires width >= 1 && height >= 1
    requires CivValid(civ) && CivOnMap(civ, width, height)
    ensures var r := AiCivTurn(civ, ci, roll, width, height);
            && CivValid(r) && CivOnMap(r, width, height)
            && |r.cities| == |civ.cities| && r.name == civ.name && r.diplomacy == civ.diplomacy
  {
    var r := AiCivTurn(civ, ci, roll, width, height);
    forall k | 0 <= k < |civ.units| ensures OnMap(r.units[k], width, height) {
      var u := civ.units[k];
      if u.moves <= 0 {
        assert r.units[k] == u;
      }
    }
  }

  /** The AI step keeps every AI civilization valid, on the map and
      holding a city, under the same name and relations. */
  lemma AiTurnValid(ais: seq<Civ>, roll: Roll, width: int, height: int)
    requires width >= 1 && height >= 1
    requires forall i :: 0 <= i < |ais| ==> CivValid(ais[i]) && CivOnMap(ais[i], width, height) && |ais[i].cities| >= 1
    ensures var r := AiTurn(ais, roll, width, height);
            forall i :: 0 <= i < |ais| ==>
              && CivValid(r[i]) && CivOnMap(r[i], width, height) && |r[i].cities| >= 1
              && r[i].name == ais[i].name && r[i].diplomacy == ais[i].diplomacy
  {
    forall i | 0 <= i < |ais| {
      AiCivTurnValid(ais[i], i, roll, width, height);
    }
  }

  lemma ProcessTurnParts(g: Game, roll: Roll)
    ensures var r := ProcessTurn(g, roll);
            var pt := PlayerPhase(g.player, g.nextId);
            && r.player == pt.civ && r.nextId == pt.nextId && r.world == g.world
            && r.ais == AiTurn(g.ais, roll, g.world.width, g.world.height)
  {
  }

  /** Relations are kept by name, and a turn changes neither the names nor
      the relations. */
  lemma SymmetryKept(g: Game, r: Game)
    requires DiplomacySymmetric(g) && AiNamesDistinct(g.ais)
    requires r.player.name == g.player.name && r.player.diplomacy == g.player.diplomacy && |r.ais| == |g.ais|
    requires forall i :: 0 <= i < |g.ais| ==> r.ais[i].name == g.ais[i].name && r.ais[i].diplomacy == g.ais[i].diplomacy
    ensures DiplomacySymmetric(r) && AiNamesDistinct(r.ais)
  {
  }

  /** A turn keeps the game well-formed. */
  lemma ProcessTurnPreservesWellFormed(g: Game, roll: Roll)
    requires WellFormed(g)
    ensures WellFormed(ProcessTurn(g, roll))
  {
    var r := ProcessTurn(g, roll);
    ProcessTurnParts(g, roll);
    PlayerPhaseValid(g.player, g.nextId, g.world.width, g.world.height);
    AiTurnValid(g.ais, roll, g.world.width, g.world.height);
    SymmetryKept(g, r);
  }
}

=== FILE: units.dfy ===
/** Units: creation, the one-step `move` with its per-turn allowance, the
    turn's reset, the guarded moves the player issues, and the AI's clamped
    random step. */
module Units {

  import opened Common
  import opened Tables

  const MovesPerTurn: int := 2
  const FullHealth: int := 100

  /** A unit on the map. `owner` is the id of the owning civilization; `id`
      stands for the object identity by which the map's unit registry
      finds the unit. */
  datatype Unit = Unit(
    id: nat,
    kind: UnitType,
    x: int,
    y: int,
    health: int,
    moves: int,
    strength: int,
    owner: nat)

  /** A unit as it leaves a city or the setup: full health, full moves and
      the strength of its type. */
  function NewUnit(id: nat, kind: UnitType, x: int, y: int, owner: nat): Unit {
    Unit(id, kind, x, y, FullHealth, MovesPerTurn, UnitStrength(kind), owner)
  }

  predicate MovesInRange(u: Unit) {
    0 <= u.moves <= MovesPerTurn
  }

  predicate OnMap(u: Unit, width: int, height: int) {
    0 <= u.x < width && 0 <= u.y < height
  }

  /** `Unit.move`'s return value together with the unit afterwards. */
  datatype Moved = Moved(ok: bool, unit: Unit)

  /** Shifts the unit by (dx, dy) if it has a move left. The map's bounds
      are the caller's business. */
  function Move(u: Unit, dx: int, dy: int): (r: Moved)
    ensures r.ok <==> u.moves > 0
    ensures r.ok ==> r.unit.x == u.x + dx && r.unit.y == u.y + dy && r.unit.moves == u.moves - 1
    ensures r.unit.(x := u.x, y := u.y, moves := u.moves) == u
    ensures !r.ok ==> r.unit == u
    ensures MovesInRange(u) ==> MovesInRange(r.unit)
  {
    if u.moves > 0 then
      Moved(true, u.(x := u.x + dx, y := u.y + dy, moves := u.moves - 1))
    else
      Moved(false, u)
  }

  function ResetMoves(u: Unit): (r: Unit)
    ensures r.moves == MovesPerTurn && MovesInRange(r)
    ensures r.(moves := u.moves) == u
  {
    u.(moves := MovesPerTurn)
  }

  /** A step and the step back cost two moves and nothing else. */
  lemma MoveThenBack(u: Unit, dx: int, dy: int)
    requires u.moves >= 2
    ensures Move(u, dx, dy).ok && Move(Move(u, dx, dy).unit, -dx, -dy).ok
    ensures Move(Move(u, dx, dy).unit, -dx, -dy).unit == u.(moves := u.moves - 2)
  {
  }

  /** After a reset a unit can move exactly twice: the third move is refused
      and leaves the unit where the second one put it. */
  lemma TwoMovesPerTurn(u: Unit, d1: (int, int), d2: (int, int), d3: (int, int))
    ensures var a := Move(ResetMoves(u), d1.0, d1.1);
            var b := Move(a.unit, d2.0, d2.1);
            var c := Move(b.unit, d3.0, d3.1);
            a.ok && b.ok && !c.ok && c.unit == b.unit && b.unit.moves == 0
  {
  }

  /** The four moves offered by the unit menu. */
  datatype Direction = North | South | West | East

  function Offset(d: Direction): (int, int) {
    match d
    case North => (0, -1)
    case South => (0, 1)
    case West => (-1, 0)
    case East => (1, 0)
  }

  /** A move chosen from the unit menu: offered only while the unit has
      moves left, and only when the step stays on the map on the axis it
      changes. */
  function ControlMove(u: Unit, d: Direction, width: int, height: int): (r: Result<Unit>)
    ensures u.moves <= 0 ==> r == Err(NoMovesRemaining)
    ensures r.Ok? ==> r.value == Move(u, Offset(d).0, Offset(d).1).unit && r.value.moves == u.moves - 1
    ensures r.Err? ==> r.error == NoMovesRemaining || r.error == OutOfBounds
    ensures u.moves > 0 && r.Err? ==> r.error == OutOfBounds
    ensures OnMap(u, width, height) ==>
              (r.Ok? <==> u.moves > 0 && OnMap(u.(x := u.x + Offset(d).0, y := u.y + Offset(d).1), width, height))
    ensures r.Ok? && OnMap(u, width, height) ==> OnMap(r.value, width, height)
  {
    if u.moves <= 0 then Err(NoMovesRemaining)
    else
      match d
      case North => if u.y > 0 then Ok(Move(u, 0, -1).unit) else Err(OutOfBounds)
      case South => if u.y < height - 1 then Ok(Move(u, 0, 1).unit) else Err(OutOfBounds)
      case West => if u.x > 0 then Ok(Move(u, -1, 0).unit) else Err(OutOfBounds)
      case East => if u.x < width - 1 then Ok(Move(u, 1, 0).unit) else Err(OutOfBounds)
  }

  /** One axis of the AI's random step: an element of {-1, 0, 1}. */
  datatype Delta = Back | Stay | Ahead {
    function Value(): int {
      match this
      case Back => -1
      case Stay => 0
      case Ahead => 1
    }
  }

  function Min(a: int, b: int): int { if a <= b then a else b }
  function Max(a: int, b: int): int { if a >= b then a else b }

  /** The AI's step for one unit: a unit with moves left takes the random
      step, clamped coordinate by coordinate into the map, and spends one
      move; a unit without moves stays put. */
  function AiMove(u: Unit, dx: Delta, dy: Delta, width: int, height: int): (r: Unit)
    ensures u.moves <= 0 ==> r == u
    ensures u.moves > 0 ==> r.moves == u.moves - 1
    ensures r.(x := u.x, y := u.y, moves := u.moves) == u
    ensures u.moves > 0 && width >= 1 && height >= 1 ==> OnMap(r, width, height)
    ensures OnMap(u, width, height) ==> -1 <= r.x - u.x <= 1 && -1 <= r.y - u.y <= 1
    ensures u.moves > 0 && OnMap(u.(x := u.x + dx.Value(), y := u.y + dy.Value()), width, height) ==>
              r.x == u.x + dx.Value() && r.y == u.y + dy.Value()
    ensures MovesInRange(u) ==> MovesInRange(r)
    ensures u.moves > 0 && 0 <= u.x + dx.Value() < width ==> r.x == u.x + dx.Value()
    ensures u.moves > 0 && u.x + dx.Value() < 0 ==> r.x == 0
    ensures u.moves > 0 && u.x + dx.Value() >= width && width >= 1 ==> r.x == width - 1
    ensures u.moves > 0 && 0 <= u.y + dy.Value() < height ==> r.y == u.y + dy.Value()
    ensures u.moves > 0 && u.y + dy.Value() < 0 ==> r.y == 0
    ensures u.moves > 0 && u.y + dy.Value() >= height && height >= 1 ==> r.y == height - 1
  {
    if u.moves > 0 then
      var nx := Max(0, Min(width - 1, u.x + dx.Value()));
      var ny := Max(0, Min(height - 1, u.y + dy.Value()));
      u.(x := nx, y := ny, moves := u.moves - 1)
    else
      u
  }
}
